=== FILE: README.md ===
# Smartphone listing scraper: extraction and normalisation

This project models the core of a PHP scraper for a paginated smartphone
listing. The scraper does four things:

- It fetches a root listing and follows every page link on it.
- It reads every product element on every page.
- For each colour a product offers, it builds one `Product` record holding
  title, price, image URL, capacity in megabytes, colour, availability text,
  availability flag, shipping text and shipping date.
- It stores each record in an insertion-ordered PHP array keyed by
  "title colour" and writes out that array's values.

The same per-product extraction also exists as the static class
`ProductItemHelper`, which differs only in the price trim list and in taking
the image base URL as a parameter.

Modules, following the source's structure:

- `Extraction`:
  - the extractors of `Scrape` and `ProductItemHelper` (price, capacity,
    availability, shipping, image URL, `fetchProduct`);
  - the trim list and the base URL are parameters.
- `ShippingDate`:
  - `extractDateFromMessage`;
  - the case-insensitive, word-bounded pattern stated declaratively
    (`MatchSpan`);
  - a deterministic leftmost matcher proved to find exactly its matches;
  - `strtotime` and `date('Y-m-d')` on what it finds.
- `Scrape`:
  - `run`, `fetchProductsFromPage` and `fetchProduct` with the class's
    constants;
  - the document fetcher is a function parameter from URL to document.
- `ProductItemHelper`: the helper's `fetchProduct`, and how its price
  extraction relates to `Scrape`'s.
- `ProductRecord`: the `Product` class and its defaults.
- Supporting modules:
  - `PhpString`: `str_contains`, `str_replace`, `ltrim`.
  - `PhpNumeric`: PHP's leading-numeric reading behind `(float)` and
    `intval`, with exact rational values.
  - `OrderedMap`: an insertion-ordered PHP array.
  - `Calendar`: dates, "tomorrow" and `Y-m-d`.
  - `Digits`: decimal digit strings.
  - `Wrappers`: `Option` and `Result`.
- Worked examples: `ProductExamples` and `ShippingExamples`.

A product element is reduced to the texts its CSS selectors return (the
`Fragment` datatype). `text('empty')` is modelled faithfully:

- a selector that matched nothing reads as absent;
- so does an element whose text is literally `empty`.

Behaviour of the code worth knowing:

- A present but empty price element gives price `0.0`, not null
  (`Extraction.PriceNonNumeric`).
- A price or capacity with no leading number gives `0`; it is not rejected.
- A product without an `h3` heading, or without any `img`, throws an
  uncaught exception as soon as it has one colour. The whole run aborts:
  the record is not dropped, and nothing is written. This is the `Fault`
  result of `Scrape.Run`.
- An `img` without a `src` attribute gives an image URL equal to the base
  URL. This is not a failure.
- A product with no colours yields no record and fetches nothing.
- A root listing without a `#pages div` makes `children('a')` throw, so the
  run aborts before any page is fetched (`Scrape.RunNeedsPageList`).
- The ordinal suffix of a day must be lower case: "3RD Jan 2025" matches the
  case-insensitive pattern, but `strtotime` cannot read it and returns
  false. `date('Y-m-d', false)` then writes the epoch date, 1970-01-01 in UTC,
  as the shipping date. The model gives no date in its place
  (`ShippingDate.UpperSuffixNoDate`).

## Model

| member | source | states |
|---|---|---|
| PhpString.Contains | src/Scrape.php:154 | `str_contains` is true exactly when the needle occurs at some index of the haystack. |
| PhpString.RemoveAll | src/Scrape.php:94 | `str_replace` with an empty replacement never lengthens the text. It leaves text without the needle unchanged and strictly shortens text containing it. |
| PhpString.RemoveAllSplits | src/Scrape.php:94 | For a needle that cannot overlap itself, every occurrence is removed: removal splits around an occurrence. |
| PhpString.RemoveAllUnchangedIff | src/Scrape.php:94 | Removal leaves the text unchanged if and only if the text does not contain the needle. |
| PhpString.LTrim | src/Scrape.php:136 | `ltrim` returns a suffix of its input. Every stripped character is in the set, and the result does not start with one. |
| PhpString.LTrimPrefix | src/Scrape.php:136 | Trimming a prefix made of set characters, followed by text starting outside the set, returns that text. |
| PhpString.LTrimWider | src/Scrape.php:136 | Widening the trim set changes nothing when what the narrow set leaves starts outside the wider set. |
| PhpNumeric.FloatCast | src/Scrape.php:136 | `(float)` on a string. It has no ensures of its own: `ParseRendered`, `FloatCastOfDigits`, `FloatCastOfDecimal` and `NonNumericIsZero` state its behaviour. |
| PhpNumeric.IntVal | src/Scrape.php:155-157 | `intval` on a string. It has no ensures of its own: `FloatCastOfDigits`, `NonNumericIsZero` and `Truncate` state its behaviour. |
| PhpNumeric.ParseRendered | src/Scrape.php:136 | Reading a numeral's canonical spelling back with `(float)`, followed by a character that cannot extend it, yields that numeral (sign, digits, point, exponent). |
| PhpNumeric.FloatCastOfDigits | src/Scrape.php:155 | A run of digits reads as the number it spells, both under `(float)` and under `intval`. |
| PhpNumeric.FloatCastOfDecimal | src/Scrape.php:136 | `d.f` followed by a non-numeric tail reads as the exact fraction `df / 10^len(f)`. |
| PhpNumeric.NonNumericIsZero | src/Scrape.php:155 | Text that does not begin like a number reads as 0 under both `(float)` and `intval`. |
| PhpNumeric.Truncate | src/Scrape.php:155 | `intval` drops the fraction toward zero, for negative values too. |
| Calendar.NextDay | src/Scrape.php:116 | "tomorrow" lands on a valid date after today, and no valid date lies strictly between. |
| Calendar.Format | src/Scrape.php:116 | `date('Y-m-d')` renders a four-digit year, then the month and the day as two digits each, separated by dashes. Each field's digits have the date's value. |
| Calendar.FormatOfDigits | src/Scrape.php:116 | A valid date written with 4, 2 and 2 digits renders back as exactly those digits. |
| ShippingDate.MatchEnd | src/Scrape.php:113 | The matcher at a position returns an end if and only if the declarative pattern matches exactly that span there: word boundaries on both sides and one of the three alternatives. |
| ShippingDate.FirstMatch | src/Scrape.php:115 | The `preg_match` scan: a span it reports starts at or after the scan's start and is a match of the pattern. `FirstMatchSpec` and `LeftmostMatch` state that it is the leftmost one. |
| ShippingDate.FirstMatchSpec | src/Scrape.php:115 | `preg_match` finds a match if and only if the message has one, and no match starts before the one it finds. |
| ShippingDate.LeftmostMatch | src/Scrape.php:115 | A match with no other match starting before it is the one reported. |
| ShippingDate.ExtractDate | src/Scrape.php:111-120 | `extractDateFromMessage`. It has no ensures of its own: `ExtractDateSound`, `ExtractFirstDate` and `DateFound` state its behaviour. |
| ShippingDate.ExtractDateSound | src/Scrape.php:111-120 | A message with no match gives null. A returned date is always the `Y-m-d` rendering of a real calendar day. |
| ShippingDate.ExtractAtMatch | src/Scrape.php:115-116 | The leftmost match decides the date: its text read by `strtotime` and rendered as `Y-m-d`, or no date when it cannot be read. |
| ShippingDate.ExtractFirstDate | src/Scrape.php:111-120 | When no match starts in the text before a date-like word standing between non-word characters, that word alone decides the result: its date rendered, or null. |
| ShippingDate.DateFound | src/Scrape.php:111-120 | The shipping date of a message whose first match stands for a valid day is that day as `Y-m-d`. |
| ShippingDate.NoMatchBefore | src/Scrape.php:113 | No match starts where the text holds neither a digit nor a `t`, nor where a word continues, because `\b` fails there. |
| ShippingDate.Interpret | src/Scrape.php:116 | `strtotime` on the matched text: a date it gives is a real calendar day. `InterpretDayMonthYear`, `UpperSuffixNoDate`, `InterpretTomorrow` and `IsoRoundTrip` say which day each shape stands for. |
| ShippingDate.InterpretDayMonthYear | src/Scrape.php:113-116 | A day of one or two digits, an optional lower-case `th`/`st`/`nd`/`rd`, a month abbreviation in any case and a four-digit year match. Together they stand for that calendar day when it exists. |
| ShippingDate.UpperSuffixNoDate | src/Scrape.php:113-116 | The same shape with a suffix that is not all lower case ("RD", "Th") matches the pattern but stands for no date, because `strtotime` reads only lower-case suffixes. |
| ShippingDate.InterpretTomorrow | src/Scrape.php:113-116 | "tomorrow" in any letter case matches and stands for the day after today. |
| ShippingDate.NoDateInQuietText | src/Scrape.php:115-119 | A message with no digit and no `t`/`T` has no shipping date. |
| ShippingDate.WordRunMatch | src/Scrape.php:113 | Inside a run of word characters, a match must span the whole run and spell "tomorrow". |
| ShippingDate.WordRunHasNoDate | src/Scrape.php:113-119 | Because of `\b`, a run of word characters other than "tomorrow" (e.g. "tomorrows") has no date. |
| ShippingDate.IsoRoundTrip | src/Scrape.php:113-116 | Extracting from a rendered `Y-m-d` date gives that rendering back. |
| ShippingExamples.OrdinalText | src/Scrape.php:113-116 | "3rd Jan 2025" matches and stands for 2025-01-03. |
| ShippingExamples.OrdinalDate | src/Scrape.php:111-120 | "Arrives 3rd Jan 2025" gives "2025-01-03". |
| ShippingExamples.GetItDate | src/Scrape.php:111-120 | "Get it by 3rd Jan 2025" gives "2025-01-03": the `t`s inside "Get" and "it" start no match. |
| ShippingExamples.ShoutedOrdinalText | src/Scrape.php:113-116 | "3RD Jan 2025" matches and stands for no date. |
| ShippingExamples.ShoutedOrdinalDate | src/Scrape.php:111-120 | "Arrives 3RD Jan 2025" gives no date in the model, where PHP writes the epoch date for the failed `strtotime`. No later date in the message is tried. |
| ShippingExamples.PlainText | src/Scrape.php:113-116 | "3 jan 2025" matches with no suffix and a lower-case month, and stands for 2025-01-03. |
| ShippingExamples.PlainDate | src/Scrape.php:111-120 | "3 jan 2025" gives "2025-01-03". |
| ShippingExamples.TomorrowDate | src/Scrape.php:111-120 | "Delivered Tomorrow" gives the day after today. |
| ShippingExamples.LeftmostWins | src/Scrape.php:115 | "tomorrow or 2025-01-10" gives tomorrow's date: the leftmost match wins. |
| ShippingExamples.NoInfo | src/Scrape.php:115-119 | "No info" gives null. |
| ShippingExamples.TomorrowsHasNoDate | src/Scrape.php:113-119 | "tomorrows" gives null. |
| Extraction.TextOrNull | src/Scrape.php:92-95 | The sentinel comparison: absent if and only if no element matched or its text is "empty". Otherwise the text is unchanged. |
| Extraction.ExtractPrice | src/Scrape.php:128-137 | The price is null if and only if there is no price element or its text is "empty". |
| Extraction.StripSymbols | src/Scrape.php:136 | Currency symbols from the trim list in front of a digit are stripped, and such text is never the sentinel. |
| Extraction.PriceOfDigits | src/Scrape.php:128-137 | Symbols then whole units give that many units. |
| Extraction.PriceOfDecimal | src/Scrape.php:128-137 | Symbols then `d.f` give the exact decimal value. |
| Extraction.PriceNonNumeric | src/Scrape.php:128-137 | A present price whose trimmed text does not begin like a number, the empty text included, is 0.0 rather than null. |
| Extraction.ExtractCapacity | src/Scrape.php:145-160 | The capacity is null if and only if there is no capacity element or its text is "empty". |
| Extraction.CapacityOfDigits | src/Scrape.php:145-160 | Digits then a unit give that many megabytes when the unit contains "MB", and that number times 1024 otherwise. |
| Extraction.CapacityNonNumeric | src/Scrape.php:145-160 | Capacity text with no leading number is 0, whatever its unit. |
| Extraction.AvailabilityText | src/Scrape.php:91-95 | Absent if and only if there are no blocks or the first reads "empty". A first block without the label is kept as it is. |
| Extraction.LabelBorderFree | src/Scrape.php:94 | The label "Availability: " cannot overlap itself. |
| Extraction.LabelCutEverywhere | src/Scrape.php:91-95 | Every occurrence of the label is cut from the first block, not only a leading one. |
| Extraction.LabelledAvailability | src/Scrape.php:91-95 | "Availability: t" gives `t` when `t` holds no further label. |
| Extraction.InjectAvailabilityAndShipping | src/Scrape.php:89-104 | Availability comes from the first block. A shipping text exists if and only if there are at least two blocks, and it is the last block. The shipping date is extracted from that text, and otherwise keeps the record's value. No other field changes. |
| Extraction.MiddleBlocksIgnored | src/Scrape.php:91-99 | Blocks between the first and the last change nothing. |
| Extraction.IsAvailable | src/Scrape.php:82 | Available if and only if the availability text exists and contains "In Stock". |
| Extraction.ImageUrl | src/Scrape.php:74 | The URL is the base URL followed by a suffix of `src`: all leading dots stripped and nothing else. A missing `src` counts as empty. |
| Extraction.ImageUrlKeepsPlainPath | src/Scrape.php:74 | A path without leading dots is appended unchanged. |
| Extraction.FetchProductWith | src/Scrape.php:69-83 | Failure if and only if the heading or the image is missing, with the heading checked first. On success, each field is what its extractor gives, and the availability flag agrees with the availability text. The shipping text is the last block when there are two or more, and the date is read from it. Otherwise the shipping text is null and the record's date is kept. |
| Extraction.FreshShippingDateStaysNull | src/Product.php:62-69 | A new record keeps its null shipping text and date when there are fewer than two blocks. |
| Scrape.FetchProduct | src/Scrape.php:69-83 | The class's `fetchProduct` on a new record: failure if and only if the heading or the image is missing. The image URL is the class's base URL joined to the first image's `src`, and the availability text is the one read from the first block. Shipping text and date are null with fewer than two blocks. Otherwise the shipping text is the last block and the date is read from it. |
| Scrape.Key | src/Scrape.php:57 | The key `title . ' ' . colour`. It has no ensures of its own: `KeySplitsAtSpace` and `JoinedKeysCollide` state when two records share a key. |
| Scrape.KeySplitsAtSpace | src/Scrape.php:57 | When neither title contains a space, two records share a key if and only if they have the same title and the same colour. |
| Scrape.Variants | src/Scrape.php:50-59 | One record per colour, in colour order, each the `fetchProduct` of that colour. A fault is raised by the first colour. |
| Scrape.Harvest | src/Scrape.php:45-60 | The records of a list of products, as the nested loops produce them. It has no ensures of its own: `HarvestFailsIff`, `HarvestAppend` and `Scrape.Variants` state its behaviour. |
| Scrape.HarvestFailsIff | src/Scrape.php:47-59 | A harvest aborts if and only if some product with at least one colour lacks a heading or an image. Otherwise it holds one record per (product, colour) pair. |
| Scrape.HarvestAppend | src/Scrape.php:45-60 | Harvesting two runs of products is harvesting each in turn; a fault in the first run wins. |
| Scrape.FetchProductsFromPage | src/Scrape.php:43-61 | The loop stores every record of the page, in document order, into the map under its key. It returns the first fault. |
| Scrape.PageUrl | src/Scrape.php:31 | A page URL is the base URL, "?page=" and the page link text. |
| Scrape.PageUrlRoundTrip | src/Scrape.php:31 | The link text is recovered from its URL, and no page URL equals the root URL. |
| Scrape.PageUrlInjective | src/Scrape.php:31 | Two links give the same URL if and only if they are equal. |
| Scrape.PageUrls | src/Scrape.php:25-31 | The URLs fetched, one per page link and in link order. `PageUrlsRoundTrip` states that each names the link at its position. |
| Scrape.PageProducts | src/Scrape.php:30-33 | The products of the fetched pages, page after page. It has no ensures of its own: `Scrape.Run`, `ScrapedOutput` and `RunIgnoresRootProducts` state what a run does with them. |
| Scrape.PageUrlsRoundTrip | src/Scrape.php:25-31 | Each fetched URL names the link at the same position. |
| Scrape.Scraped | src/Scrape.php:18-36 | What `run` writes out, stated without loops. It has no ensures of its own: `Scrape.Run`, `RunNeedsPageList` and `ScrapedOutput` state its behaviour. |
| Scrape.Run | src/Scrape.php:18-36 | The run fails at once when the root listing has no `#pages div`. Otherwise it fetches each linked page in order and stores its records. It outputs the map's values, or the fault that aborted it. |
| Scrape.HarvestFaultIsProducts | src/Scrape.php:43-61 | Harvesting pages only ever raises a product's own fault, never the missing page list. |
| Scrape.RunNeedsPageList | src/Scrape.php:24-25 | A run fails for want of a page list if and only if the root listing has no `#pages div`. |
| Scrape.RunIgnoresRootProducts | src/Scrape.php:24-33 | Only the root document's page links matter: products listed on the root document itself are never harvested. |
| Scrape.PutCoherent | src/Scrape.php:57-58 | Storing a record under its key keeps every entry stored under its own record's key. |
| Scrape.DeduplicatedOutput | src/Scrape.php:35 | The output has one record per distinct key, in first-seen order. Each is the last record written under its key. |
| Scrape.ScrapedOutput | src/Scrape.php:35 | The same for a whole successful run. |
| Scrape.JoinedKeysCollide | src/Scrape.php:57-58 | Titles "t u" and "t" with colours "c" and "u c" share one key, so the second record replaces the first. |
| OrderedMap.Lookup | src/Scrape.php:58 | A key has a value if and only if it is among the keys. |
| OrderedMap.Put | src/Scrape.php:58 | Array assignment: an existing key keeps its place, a new key is appended, the key now holds the new value, and every other key keeps its value. |
| OrderedMap.PutNew | src/Scrape.php:58 | A key not yet present is appended at the end. |
| OrderedMap.PutExisting | src/Scrape.php:58 | In a map with distinct keys, writing an existing key replaces its value in place. |
| OrderedMap.PutAll | src/Scrape.php:57-58 | A sequence of array assignments. It has no ensures of its own: `PutAllKeys`, `PutAllLookup`, `PutAllKeepsDistinct` and `Accumulate` state its behaviour. |
| OrderedMap.PutAllKeepsDistinct | src/Scrape.php:57-58 | Keys stay distinct under any sequence of writes. |
| OrderedMap.PutAllKeys | src/Scrape.php:57-58 | After a sequence of writes to an empty array, the keys are the written keys in first-seen order. |
| OrderedMap.PutAllLookup | src/Scrape.php:57-58 | After a sequence of writes to an empty array, each key holds the last value written under it. |
| OrderedMap.Accumulate | src/Scrape.php:35 | The values of the array, with each key once and in first-seen order, are the last values written. |
| OrderedMap.OverwriteKeepsPlace | src/Scrape.php:57-58 | Writing a, b, b' (same key as b), c leaves a, b', c. |
| ProductItemHelper.FetchProduct | src/ProductItemHelper.php:16-30 | The static `fetchProduct` fills the given record with the given base URL: failure if and only if the heading or the image is missing. Otherwise each field comes from its extractor: the image URL from the first image, the availability text from the first block, and the flag from that text. The shipping text is the last of two or more blocks and the date is read from it. With fewer blocks the shipping text is null and the record's date is kept. |
| ProductItemHelper.PricesAgree | src/ProductItemHelper.php:75-84 | The helper's price equals `Scrape`'s when what stripping `£` leaves is empty or does not start with `Â`. |
| ProductItemHelper.FetchAgrees | src/ProductItemHelper.php:16-30 | On a new record and `Scrape`'s base URL, the helper builds the same record as `Scrape`, under the same price condition. |
| ProductItemHelper.PricesDisagree | src/ProductItemHelper.php:83 | The condition is needed: "£Â5" is 0.0 for the helper and 5.0 for `Scrape`. |
| ProductRecord.Fresh | src/Product.php:13-69 | `new Product()`: every field null and `isAvailable` false, as the class declares. It has no ensures of its own: `FreshShippingDateStaysNull` and `NoBlocksNoAvailability` state what a fetch leaves of it. |
| ProductExamples.Capacity128GB | src/Scrape.php:154-157 | "128GB" is 131072 MB. |
| ProductExamples.Capacity512MB | src/Scrape.php:154-155 | "512MB" is 512 MB. |
| ProductExamples.Price199 | src/Scrape.php:136 | "£199" is 199.0. |
| ProductExamples.Price399 | src/Scrape.php:136 | "£399.99" is exactly 399.99. |
| ProductExamples.HelperDoublePound | src/ProductItemHelper.php:83 | "££5" is 5.0 for the helper: every leading pound sign goes. |
| ProductExamples.InStockBlock | src/Scrape.php:91-95 | "Availability: In Stock" reads as "In Stock", which is available. |
| ProductExamples.OutOfStockBlock | src/Scrape.php:91-95 | "Availability: Out of Stock" reads as "Out of Stock", which is not available ("In Stock" does not occur in it). |
| ProductExamples.NoBlocksNoAvailability | src/Product.php:55-69 | With no blocks, a record is unavailable and has no availability text, shipping text or shipping date. |

## Left out

- Fetching documents over HTTP (`ScrapeHelper::fetchDocument`) is a parameter: a function from URL to an already-parsed `Document`. `ScrapeHelper` is not part of this model.
- CSS selection and the DomCrawler text normalisation are not modelled: a product is given as the texts its selectors return.
- Writing `output.json` (`json_encode`, `file_put_contents`) is left out: the model returns the values that would be encoded.
- The clock is a parameter: `today` stands for the day `strtotime('tomorrow')` counts from.
- Extraction.ExtractPrice: prices are exact rationals, not IEEE doubles, so rounding of long decimals is not modelled.
- Extraction.ExtractCapacity: `intval`'s 64-bit saturation and the overflow of `* 1024` are not modelled (integers are unbounded).
- ShippingDate.Interpret: a matched date that does not exist on the calendar (e.g. "31 Feb 2025" or "2025-13-01") gives no date here. PHP's `strtotime` rolls such a date over or fails, which `date()` turns into 1970-01-01. The same failure follows a suffix that is not lower case ("3RD Jan 2025"), which `strtotime` cannot read; the model gives no date there too. Only valid dates are modelled.
- Calendar.Format: the contract speaks only of years below 10000. The pattern's four-digit years stay below that, but "tomorrow" read on 9999-12-31 gives a day in year 10000, whose rendering is not stated.
- Strings are sequences of characters, so `ltrim` with "Â£" strips the characters `Â` and `£`. The byte-level stripping of UTF-8 lead and continuation bytes in other characters is not modelled.
- The pattern's `\w` and `\b` are ASCII-only, as PCRE's without the `u` flag. Locale-specific word characters are not modelled.
- Passing a null availability text to `str_contains` reads as "" (the PHP 8 deprecation notice is not modelled).
- ShippingExamples.ShoutedOrdinalDate: PHP writes the epoch date 1970-01-01 (UTC) for "3RD Jan 2025", because `date('Y-m-d', false)` renders time 0. The model gives no date there, as for every date `strtotime` cannot read. The rendering of time 0 depends on the server's timezone, which is not modelled.
- ProductItemHelper.FetchProduct: PHP fills the caller's `$item` field by field. When there is no `img`, `attr('src')` throws after `title` and `price` have already been written to the caller's object. The model returns `Failure(MissingImage)` and no record, so this partial update is not modelled.
- `Product` fields are public and mutable in PHP. Here a record is an immutable value, and `fetchProduct` returns the filled record.

=== FILE: calendar.dfy ===
/** Proleptic Gregorian calendar dates, the successor of a date ("tomorrow")
    and the `Y-m-d` rendering PHP's `date()` produces. */
module Calendar {
  import opened Digits

  datatype Date = Date(year: nat, month: nat, day: nat)

  predicate IsLeapYear(y: nat)
  {
    y % 4 == 0 && (y % 100 != 0 || y % 400 == 0)
  }

  function DaysInMonth(y: nat, m: nat): (n: nat)
    requires 1 <= m <= 12
    ensures 28 <= n <= 31
  {
    if m == 2 then (if IsLeapYear(y) then 29 else 28)
    else if m == 4 || m == 6 || m == 9 || m == 11 then 30
    else 31
  }

  /** A date that exists on the calendar. */
  predicate Valid(d: Date)
  {
    1 <= d.month <= 12 && 1 <= d.day <= DaysInMonth(d.year, d.month)
  }

  /** Chronological order of dates. */
  predicate Before(a: Date, b: Date)
  {
    || a.year < b.year
    || (a.year == b.year && a.month < b.month)
    || (a.year == b.year && a.month == b.month && a.day < b.day)
  }

  /** The day after `d`: what `strtotime('tomorrow')` lands on. It is the
      earliest valid date after `d`. */
  function NextDay(d: Date): (e: Date)
    requires Valid(d)
    ensures Valid(e) && Before(d, e)
    ensures forall x :: Valid(x) && Before(d, x) ==> x == e || Before(e, x)
  {
    if d.day < DaysInMonth(d.year, d.month) then Date(d.year, d.month, d.day + 1)
    else if d.month < 12 then Date(d.year, d.month + 1, 1)
    else Date(d.year + 1, 1, 1)
  }

  /** `date('Y-m-d', ...)`: the year with at least four digits, then a
      two-digit month and day, separated by dashes. */
  function Format(d: Date): (r: string)
    requires Valid(d)
    ensures d.year < 10000 ==> |r| == 10
    ensures d.year < 10000 ==> AllDigits(r[..4]) && Value(r[..4]) == d.year
    ensures d.year < 10000 ==> r[4] == '-' && r[7] == '-'
    ensures d.year < 10000 ==> AllDigits(r[5..7]) && Value(r[5..7]) == d.month
    ensures d.year < 10000 ==> AllDigits(r[8..]) && Value(r[8..]) == d.day
  {
    var y := Padded(d.year, 4);
    var m := Padded(d.month, 2);
    var dd := Padded(d.day, 2);
    var r := y + "-" + m + "-" + dd;
    assert Pow10(2) == 100 && Pow10(4) == 10000;
    assert |m| == 2 && |dd| == 2;
    assert d.year < 10000 ==> |y| == 4 && r[..4] == y && r[5..7] == m && r[8..] == dd;
    r
  }

  /** A date written with four, two and two digits is rendered back as
      exactly those digits. */
  lemma FormatOfDigits(ys: string, ms: string, ds: string)
    requires |ys| == 4 && |ms| == 2 && |ds| == 2
    requires AllDigits(ys) && AllDigits(ms) && AllDigits(ds)
    requires Valid(Date(Value(ys), Value(ms), Value(ds)))
    ensures Format(Date(Value(ys), Value(ms), Value(ds))) == ys + "-" + ms + "-" + ds
  {
    PaddedValue(ys);
    PaddedValue(ms);
    PaddedValue(ds);
  }
}

=== FILE: digits.dfy ===
/** Decimal digit strings: reading them as naturals and writing naturals back
    with leading zeros, as `date('Y-m-d')` does for its fields. */
module Digits {

  predicate IsDigit(c: char)
  {
    '0' <= c <= '9'
  }

  predicate AllDigits(s: string)
  {
    forall i :: 0 <= i < |s| ==> IsDigit(s[i])
  }

  function DigitValue(c: char): nat
    requires IsDigit(c)
  {
    c as int - '0' as int
  }

  function DigitChar(d: nat): (c: char)
    requires d < 10
    ensures IsDigit(c) && DigitValue(c) == d
  {
    ('0' as int + d) as char
  }

  /** The natural number a string of decimal digits denotes (most significant first). */
  function Value(s: string): nat
    requires AllDigits(s)
  {
    if |s| == 0 then 0 else 10 * Value(s[..|s| - 1]) + DigitValue(s[|s| - 1])
  }

  function Pow10(n: nat): (r: nat)
    ensures r >= 1
  {
    if n == 0 then 1 else 10 * Pow10(n - 1)
  }

  /** `n` in decimal, left-padded with zeros to at least `width` characters. */
  function Padded(n: nat, width: nat): (r: string)
    ensures AllDigits(r)
    ensures |r| >= width && |r| >= 1
    ensures Value(r) == n
    ensures width >= 1 && n < Pow10(width) ==> |r| == width
    decreases n, width
  {
    if n < 10 && width <= 1 then [DigitChar(n)]
    else
      var prefix := Padded(n / 10, if width == 0 then 0 else width - 1);
      assert (prefix + [DigitChar(n % 10)])[..|prefix|] == prefix;
      prefix + [DigitChar(n % 10)]
  }

  /** Padding gives back a digit string from its value and its width: the
      rendering `Padded` is the inverse of reading with `Value`. */
  lemma {:induction false} PaddedValue(s: string)
    requires |s| >= 1 && AllDigits(s)
    ensures Padded(Value(s), |s|) == s
  {
    var last := s[|s| - 1];
    var init := s[..|s| - 1];
    if |s| == 1 {
      assert Value(s) == DigitValue(last);
    } else {
      PaddedValue(init);
      var n := Value(s);
      assert n / 10 == Value(init) && n % 10 == DigitValue(last);
      assert init + [last] == s;
    }
  }

  /** The value of a two-digit string, digit by digit. */
  lemma ValueOfTwo(s: string)
    requires |s| == 2 && AllDigits(s)
    ensures Value(s) == 10 * DigitValue(s[0]) + DigitValue(s[1])
  {
    assert s[..1][..0] == [];
    assert Value(s[..1]) == DigitValue(s[0]);
  }

  /** The value of a four-digit string, digit by digit. */
  lemma ValueOfFour(s: string)
    requires |s| == 4 && AllDigits(s)
    ensures Value(s) == 1000 * DigitValue(s[0]) + 100 * DigitValue(s[1]) + 10 * DigitValue(s[2]) + DigitValue(s[3])
  {
    ValueOfTwo(s[..2]);
    assert s[..3][..2] == s[..2];
    assert s[..2][0] == s[0] && s[..2][1] == s[1] && s[..3][2] == s[2];
  }

  lemma AllDigitsAppend(a: string, b: string)
    requires AllDigits(a) && AllDigits(b)
    ensures AllDigits(a + b)
  {
    assert forall i :: 0 <= i < |a + b| ==> (a + b)[i] == if i < |a| then a[i] else b[i - |a|];
  }

  lemma ValueLast(a: string, b: string)
    requires AllDigits(a) && AllDigits(b) && |b| > 0
    ensures AllDigits(b[..|b| - 1]) && AllDigits(a + b)
    ensures Value(a + b) == 10 * Value(a + b[..|b| - 1]) + DigitValue(b[|b| - 1])
  {
    AllDigitsAppend(a, b);
    assert (a + b)[..|a + b| - 1] == a + b[..|b| - 1];
  }

  /** Reading a concatenation: the digits of `a` are shifted by the width of `b`. */
  lemma {:induction false} ValueAppend(a: string, b: string)
    requires AllDigits(a) && AllDigits(b)
    ensures AllDigits(a + b) && Value(a + b) == Value(a) * Pow10(|b|) + Value(b)
    decreases |b|
  {
    if |b| == 0 {
      assert a + b == a;
    } else {
      var init, d := b[..|b| - 1], DigitValue(b[|b| - 1]);
      ValueLast(a, b);
      ValueLast("", b);
      assert "" + b == b && "" + init == init;
      ValueAppend(a, init);
      Shift(Value(a), Pow10(|init|), Value(init), d);
    }
  }

  lemma Shift(x: nat, p: nat, v: nat, d: nat)
    ensures 10 * (x * p + v) + d == x * (10 * p) + (10 * v + d)
  {
  }

  /** The value of a three-digit string, digit by digit. */
  lemma ValueOfThree(s: string)
    requires |s| == 3 && AllDigits(s)
    ensures Value(s) == 100 * DigitValue(s[0]) + 10 * DigitValue(s[1]) + DigitValue(s[2])
  {
    ValueOfTwo(s[..2]);
    assert s[..2][0] == s[0] && s[..2][1] == s[1];
  }
}

=== FILE: extraction.dfy ===
/** The per-product extraction both scraper classes perform. A product
    element is reduced to the texts its CSS selectors read, and the
    extractors turn those texts into the fields of a `Product`. The two
    classes differ only in the characters stripped before the price and in
    where the image base URL comes from, so both are parameters here. */
module Extraction {
  import opened Wrappers
  import opened Digits
  import opened PhpString
  import opened PhpNumeric
  import opened Calendar
  import opened ShippingDate
  import opened ProductRecord

  /** One `.product` element as its selectors see it. A single-valued
      selector is `None` when no element matched it; the list-valued ones keep
      every match in document order.
      - heading: the text of `h3`
      - priceText: the text of `.my-8.block.text-center.text-lg`
      - capacityText: the text of `h3 > .product-capacity`
      - blocks: the texts of `.my-4.text-sm.block.text-center`
      - images: the `src` attribute of each `img`, `None` when it has none
      - colours: the `data-colour` attribute of each `div span[data-colour]` */
  datatype Fragment = Fragment(
    heading: Option<string>,
    priceText: Option<string>,
    capacityText: Option<string>,
    blocks: seq<string>,
    images: seq<Option<string>>,
    colours: seq<string>)

  /** The exceptions that end a run: in `fetchProduct`, `text()` without a
      default on a missing heading and `attr()` on a missing image; in `run`,
      `children()` on a root listing that has no `#pages div`. */
  datatype Fault = MissingHeading | MissingImage | MissingPageList

  /** The default the extractors pass to `text()`, compared against afterwards. */
  const Sentinel := "empty"

  const AvailabilityLabel := "Availability: "

  const InStock := "In Stock"

  /** `text('empty')` followed by the comparison with 'empty': the text of
      the first element, where an element whose text is "empty" reads the
      same as no element at all. */
  function TextOrNull(node: Option<string>): (r: Option<string>)
    ensures r.None? <==> node.None? || node.value == Sentinel
    ensures r.Some? ==> r == node
  {
    if node.None? || node.value == Sentinel then None else node
  }

  /** Text holding a digit is never the sentinel. */
  lemma DigitNotSentinel(t: string, i: nat)
    requires i < |t| && IsDigit(t[i])
    ensures t != Sentinel
  {
  }

  /** `extractPrice`: the characters of `trim` are stripped from the front
      and the rest is cast to a number. */
  function ExtractPrice(trim: set<char>, priceText: Option<string>): (r: Option<real>)
    ensures r.None? <==> priceText.None? || priceText.value == Sentinel
  {
    match TextOrNull(priceText)
    case None => None
    case Some(t) => Some(FloatCast(LTrim(t, trim)))
  }

  /** Currency symbols in front of a number are stripped, and the text is
      not the sentinel. */
  lemma StripSymbols(trim: set<char>, symbols: string, number: string)
    requires forall i :: 0 <= i < |symbols| ==> symbols[i] in trim
    requires |number| > 0 && IsDigit(number[0]) && number[0] !in trim
    ensures symbols + number != Sentinel && LTrim(symbols + number, trim) == number
  {
    var t := symbols + number;
    assert t[|symbols|] == number[0];
    DigitNotSentinel(t, |symbols|);
    LTrimPrefix(symbols, number, trim);
  }

  /** A price written as currency symbols and whole units reads as that many units. */
  lemma PriceOfDigits(trim: set<char>, symbols: string, ds: string, rest: string)
    requires forall i :: 0 <= i < |symbols| ==> symbols[i] in trim
    requires |ds| > 0 && AllDigits(ds) && ds[0] !in trim && Stops(rest)
    ensures ExtractPrice(trim, Some(symbols + ds + rest)) == Some(Value(ds) as real)
  {
    assert symbols + ds + rest == symbols + (ds + rest);
    StripSymbols(trim, symbols, ds + rest);
    FloatCastOfDigits(ds, rest);
  }

  lemma DecimalText(symbols: string, ds: string, fs: string, rest: string)
    requires |ds| > 0
    ensures symbols + ds + "." + fs + rest == symbols + (ds + "." + fs + rest)
    ensures (ds + "." + fs + rest)[0] == ds[0]
  {
  }

  /** A price with a decimal point reads as the exact fraction it spells. */
  lemma PriceOfDecimal(trim: set<char>, symbols: string, ds: string, fs: string, rest: string)
    requires forall i :: 0 <= i < |symbols| ==> symbols[i] in trim
    requires |ds| > 0 && AllDigits(ds) && AllDigits(fs) && ds[0] !in trim && Stops(rest)
    ensures ExtractPrice(trim, Some(symbols + ds + "." + fs + rest)) == Some(Value(ds + fs) as real / Pow10(|fs|) as real)
  {
    DecimalText(symbols, ds, fs, rest);
    StripSymbols(trim, symbols, ds + "." + fs + rest);
    FloatCastOfDecimal(ds, fs, rest);
  }

  /** A present price block that does not begin like a number, the empty text
      included, gives a price of zero rather than no price. */
  lemma PriceNonNumeric(trim: set<char>, text: string)
    requires text != Sentinel
    requires var t := LTrim(text, trim); |t| == 0 || !(IsWhitespace(t[0]) || IsDigit(t[0]) || t[0] in {'+', '-', '.'})
    ensures ExtractPrice(trim, Some(text)) == Some(0.0)
  {
    NonNumericIsZero(LTrim(text, trim));
  }

  /** `extractCapacity`: the leading integer as `intval` reads it, kept when
      the text mentions "MB" and taken as gigabytes otherwise. */
  function ExtractCapacity(capacityText: Option<string>): (r: Option<int>)
    ensures r.None? <==> capacityText.None? || capacityText.value == Sentinel
  {
    match TextOrNull(capacityText)
    case None => None
    case Some(t) => if Contains(t, "MB") then Some(IntVal(t)) else Some(IntVal(t) * 1024)
  }

  /** A capacity written as digits and a unit is that many megabytes when the
      unit mentions "MB", and that many gigabytes otherwise. */
  lemma CapacityOfDigits(ds: string, unit: string)
    requires |ds| > 0 && AllDigits(ds) && Stops(unit)
    ensures ExtractCapacity(Some(ds + unit)) == Some(if Contains(unit, "MB") then Value(ds) else Value(ds) * 1024)
  {
    var t := ds + unit;
    assert t[0] == ds[0];
    DigitNotSentinel(t, 0);
    ContainsAfter(ds, unit, "MB");
    FloatCastOfDigits(ds, unit);
  }

  /** Capacity text with no leading number is zero megabytes, whatever its unit. */
  lemma CapacityNonNumeric(text: string)
    requires text != Sentinel
    requires |text| == 0 || !(IsWhitespace(text[0]) || IsDigit(text[0]) || text[0] in {'+', '-', '.'})
    ensures ExtractCapacity(Some(text)) == Some(0)
  {
    NonNumericIsZero(text);
  }

  /** The first block with every "Availability: " cut out, unless there is
      no block or it reads "empty". */
  function AvailabilityText(blocks: seq<string>): (r: Option<string>)
    ensures r.None? <==> |blocks| == 0 || blocks[0] == Sentinel
    ensures r.Some? && !Contains(blocks[0], AvailabilityLabel) ==> r.value == blocks[0]
  {
    match TextOrNull(if |blocks| == 0 then None else Some(blocks[0]))
    case None => None
    case Some(t) => Some(RemoveAll(t, AvailabilityLabel))
  }

  /** Two occurrences of the label cannot overlap: only its first character is an `A`. */
  lemma LabelBorderFree()
    ensures BorderFree(AvailabilityLabel)
  {
    var pat := AvailabilityLabel;
    forall k | 0 < k < |pat| ensures !(pat[k..] <= pat) {
      assert pat[k..][0] == pat[k] != 'A';
    }
  }

  /** Every occurrence of the label is cut from the first block, not only a
      leading one. */
  lemma LabelCutEverywhere(x: string, y: string, later: seq<string>)
    ensures AvailabilityText([x + AvailabilityLabel + y] + later)
         == Some(RemoveAll(x, AvailabilityLabel) + RemoveAll(y, AvailabilityLabel))
  {
    var blocks := [x + AvailabilityLabel + y] + later;
    assert blocks[0] == x + AvailabilityLabel + y;
    assert |blocks[0]| > |Sentinel|;
    LabelBorderFree();
    RemoveAllSplits(x, AvailabilityLabel, y);
  }

  /** A first block "Availability: t" gives `t`, when `t` holds no further label. */
  lemma LabelledAvailability(t: string, later: seq<string>)
    requires !Contains(t, AvailabilityLabel)
    ensures AvailabilityText([AvailabilityLabel + t] + later) == Some(t)
  {
    LabelCutEverywhere("", t, later);
    assert "" + AvailabilityLabel + t == AvailabilityLabel + t;
  }

  /** `extractAndInjectAvailabilityAndShipping`: availability from the first
      block, shipping text from the last one when there are at least two, and
      a shipping date only when there is a shipping text. */
  function InjectAvailabilityAndShipping(item: Product, blocks: seq<string>, today: Date): (r: Product)
    requires Valid(today)
    ensures r.availabilityText == AvailabilityText(blocks)
    ensures r.shippingText.Some? <==> |blocks| >= 2
    ensures |blocks| >= 2 ==> r.shippingText == Some(blocks[|blocks| - 1])
    ensures |blocks| >= 2 ==> r.shippingDate == ExtractDate(blocks[|blocks| - 1], today)
    ensures |blocks| < 2 ==> r.shippingDate == item.shippingDate
    ensures r.(availabilityText := item.availabilityText, shippingText := item.shippingText, shippingDate := item.shippingDate) == item
  {
    var shipping := if |blocks| > 1 then Some(blocks[|blocks| - 1]) else None;
    var withText := item.(availabilityText := AvailabilityText(blocks), shippingText := shipping);
    if shipping.Some? then withText.(shippingDate := ExtractDate(shipping.value, today)) else withText
  }

  /** Only the first and the last block are read: blocks in between change nothing. */
  lemma MiddleBlocksIgnored(item: Product, first: string, middle: seq<string>, last: string, today: Date)
    requires Valid(today)
    ensures InjectAvailabilityAndShipping(item, [first] + middle + [last], today)
         == InjectAvailabilityAndShipping(item, [first, last], today)
  {
    var blocks := [first] + middle + [last];
    assert blocks[0] == first && blocks[|blocks| - 1] == last;
  }

  /** `str_contains($availabilityText, "In Stock")`, where a null text reads as "". */
  function IsAvailable(availabilityText: Option<string>): (r: bool)
    ensures r <==> availabilityText.Some? && exists i :: OccursAt(availabilityText.value, InStock, i)
  {
    Contains(availabilityText.GetOr(""), InStock)
  }

  /** The image URL: the base URL followed by the `src` attribute with all its
      leading dots stripped; a missing attribute counts as "". */
  function ImageUrl(baseUrl: string, src: Option<string>): (r: string)
    ensures |baseUrl| <= |r| && r[..|baseUrl|] == baseUrl
    ensures var s, t := src.GetOr(""), r[|baseUrl|..];
      && |t| <= |s| && t == s[|s| - |t|..]
      && (forall i :: 0 <= i < |s| - |t| ==> s[i] == '.')
      && (|t| > 0 ==> t[0] != '.')
  {
    var r := baseUrl + LTrim(src.GetOr(""), {'.'});
    assert r[|baseUrl|..] == LTrim(src.GetOr(""), {'.'});
    r
  }

  /** A relative path without leading dots is appended unchanged. */
  lemma ImageUrlKeepsPlainPath(baseUrl: string, src: string)
    requires |src| == 0 || src[0] != '.'
    ensures ImageUrl(baseUrl, Some(src)) == baseUrl + src
  {
    LTrimPrefix("", src, {'.'});
    assert "" + src == src;
  }

  /** `fetchProduct` on `item`: the heading is read first, then the price,
      the first image, the capacity, the colour and the availability and
      shipping blocks. A missing heading or image aborts with an exception. */
  function FetchProductWith(trim: set<char>, baseUrl: string, item: Product, f: Fragment, colour: string, today: Date): (r: Result<Product, Fault>)
    requires Valid(today)
    ensures r.Failure? <==> f.heading.None? || |f.images| == 0
    ensures r.Failure? ==> r.error == (if f.heading.None? then MissingHeading else MissingImage)
    ensures r.Success? ==> r.value.title == f.heading && r.value.colour == Some(colour)
    ensures r.Success? ==> r.value.price == ExtractPrice(trim, f.priceText)
    ensures r.Success? ==> r.value.imageUrl == Some(ImageUrl(baseUrl, f.images[0]))
    ensures r.Success? ==> r.value.capacityMB == ExtractCapacity(f.capacityText)
    ensures r.Success? ==> r.value.isAvailable == IsAvailable(r.value.availabilityText)
    ensures r.Success? ==> r.value.availabilityText == AvailabilityText(f.blocks)
    ensures r.Success? ==> (r.value.shippingText.Some? <==> |f.blocks| >= 2)
    ensures r.Success? && |f.blocks| >= 2 ==> r.value.shippingText == Some(f.blocks[|f.blocks| - 1])
    ensures r.Success? && |f.blocks| >= 2 ==> r.value.shippingDate == ExtractDate(f.blocks[|f.blocks| - 1], today)
    ensures r.Success? && |f.blocks| < 2 ==> r.value.shippingDate == item.shippingDate
  {
    if f.heading.None? then Failure(MissingHeading)
    else if |f.images| == 0 then Failure(MissingImage)
    else
      var filled := item.(
        title := f.heading,
        price := ExtractPrice(trim, f.priceText),
        imageUrl := Some(ImageUrl(baseUrl, f.images[0])),
        capacityMB := ExtractCapacity(f.capacityText),
        colour := Some(colour));
      var injected := InjectAvailabilityAndShipping(filled, f.blocks, today);
      Success(injected.(isAvailable := IsAvailable(injected.availabilityText)))
  }

  /** A fresh record keeps its null shipping date when the product has fewer
      than two blocks. */
  lemma FreshShippingDateStaysNull(trim: set<char>, baseUrl: string, f: Fragment, colour: string, today: Date)
    requires Valid(today) && |f.blocks| < 2
    ensures var r := FetchProductWith(trim, baseUrl, Fresh(), f, colour, today);
      r.Success? ==> r.value.shippingText.None? && r.value.shippingDate.None?
  {
  }
}

=== FILE: orderedmap.dfy ===
/** The insertion-ordered map a PHP array with string keys is: assigning to a
    new key appends an entry, assigning to an existing key replaces its value
    where it stands, and iteration follows the entries. */
module OrderedMap {
  import opened Wrappers

  type Entries<K, V> = seq<(K, V)>

  function Keys<K, V>(m: Entries<K, V>): (ks: seq<K>)
    ensures |ks| == |m| && forall i :: 0 <= i < |m| ==> ks[i] == m[i].0
  {
    seq(|m|, i requires 0 <= i < |m| => m[i].0)
  }

  /** `array_values`: the values in entry order. */
  function Values<K, V>(m: Entries<K, V>): (vs: seq<V>)
    ensures |vs| == |m| && forall i :: 0 <= i < |m| ==> vs[i] == m[i].1
  {
    seq(|m|, i requires 0 <= i < |m| => m[i].1)
  }

  predicate Distinct<K(==)>(ks: seq<K>)
  {
    forall i, j :: 0 <= i < j < |ks| ==> ks[i] != ks[j]
  }

  /** `$m[$k]`: the value stored under `k`, if any. */
  function Lookup<K(==), V>(m: Entries<K, V>, k: K): (r: Option<V>)
    ensures r.None? <==> k !in Keys(m)
  {
    if |m| == 0 then None
    else if m[0].0 == k then Some(m[0].1)
    else
      assert Keys(m) == [m[0].0] + Keys(m[1..]);
      Lookup(m[1..], k)
  }

  lemma KeysCons<K, V>(e: (K, V), m: Entries<K, V>)
    ensures Keys([e] + m) == [e.0] + Keys(m)
  {
  }

  lemma LookupCons<K, V>(e: (K, V), m: Entries<K, V>)
    ensures forall k :: Lookup([e] + m, k) == if e.0 == k then Some(e.1) else Lookup(m, k)
  {
    assert ([e] + m)[1..] == m;
  }

  /** What `Put` promises, for `r` as the result of putting `k` into `m`. */
  ghost predicate PutResult<K(!new), V>(m: Entries<K, V>, k: K, v: V, r: Entries<K, V>)
  {
    && (k in Keys(m) ==> Keys(r) == Keys(m))
    && (k !in Keys(m) ==> Keys(r) == Keys(m) + [k])
    && Lookup(r, k) == Some(v)
    && forall k' :: k' != k ==> Lookup(r, k') == Lookup(m, k')
  }

  /** Putting a key behind an entry with another key leaves that entry in front. */
  lemma PutBehind<K(!new), V>(e: (K, V), tail: Entries<K, V>, k: K, v: V, rest: Entries<K, V>)
    requires e.0 != k && PutResult(tail, k, v, rest)
    ensures PutResult([e] + tail, k, v, [e] + rest)
  {
    KeysCons(e, tail);
    KeysCons(e, rest);
    LookupCons(e, tail);
    LookupCons(e, rest);
  }

  /** Putting the key of the entry in front replaces its value there. */
  lemma PutInFront<K(!new), V>(e: (K, V), tail: Entries<K, V>, v: V)
    ensures PutResult([e] + tail, e.0, v, [(e.0, v)] + tail)
  {
    KeysCons(e, tail);
    KeysCons((e.0, v), tail);
    LookupCons(e, tail);
    LookupCons((e.0, v), tail);
  }

  /** `$m[$k] = $v`: a new key is appended, an existing key keeps its place
      and takes the new value; every other key keeps its value. */
  function Put<K(==, !new), V>(m: Entries<K, V>, k: K, v: V): (r: Entries<K, V>)
    ensures k in Keys(m) ==> Keys(r) == Keys(m)
    ensures k !in Keys(m) ==> Keys(r) == Keys(m) + [k]
    ensures Lookup(r, k) == Some(v)
    ensures forall k' :: k' != k ==> Lookup(r, k') == Lookup(m, k')
  {
    if |m| == 0 then [(k, v)]
    else
      var e, tail := m[0], m[1..];
      assert m == [e] + tail;
      if e.0 == k then
        PutInFront(e, tail, v);
        [(k, v)] + tail
      else
        var rest := Put(tail, k, v);
        PutBehind(e, tail, k, v, rest);
        [e] + rest
  }

  /** The assignments of `es`, one after another. */
  function PutAll<K(==, !new), V>(m: Entries<K, V>, es: seq<(K, V)>): Entries<K, V>
    decreases |es|
  {
    if |es| == 0 then m else PutAll(Put(m, es[0].0, es[0].1), es[1..])
  }

  /** Reference order: each key once, where it first occurs. */
  function FirstSeen<K(==, !new)>(ks: seq<K>): (r: seq<K>)
    ensures forall k :: k in r <==> k in ks
  {
    if |ks| == 0 then []
    else
      var f := FirstSeen(ks[..|ks| - 1]);
      var k := ks[|ks| - 1];
      assert ks == ks[..|ks| - 1] + [k];
      if k in f then f else f + [k]
  }

  /** Reference value: the last one written under `k`. */
  function LastValue<K(==), V>(es: seq<(K, V)>, k: K): Option<V>
  {
    if |es| == 0 then None
    else if es[|es| - 1].0 == k then Some(es[|es| - 1].1)
    else LastValue(es[..|es| - 1], k)
  }

  lemma DistinctSnoc<K>(ks: seq<K>, k: K)
    requires Distinct(ks) && k !in ks
    ensures Distinct(ks + [k])
  {
    forall i, j | 0 <= i < j < |ks + [k]| ensures (ks + [k])[i] != (ks + [k])[j] {
      assert (ks + [k])[i] == ks[i];
    }
  }

  /** Keys stay distinct under `Put`. */
  lemma PutKeepsDistinct<K(!new), V>(m: Entries<K, V>, k: K, v: V)
    requires Distinct(Keys(m))
    ensures Distinct(Keys(Put(m, k, v)))
  {
    if k !in Keys(m) {
      DistinctSnoc(Keys(m), k);
    }
  }

  /** Keys stay distinct under any sequence of assignments. */
  lemma {:induction false} PutAllKeepsDistinct<K(!new), V>(m: Entries<K, V>, es: seq<(K, V)>)
    requires Distinct(Keys(m))
    ensures Distinct(Keys(PutAll(m, es)))
    decreases |es|
  {
    if |es| > 0 {
      PutKeepsDistinct(m, es[0].0, es[0].1);
      PutAllKeepsDistinct(Put(m, es[0].0, es[0].1), es[1..]);
    }
  }

  /** Writing one more entry at the end is one more `Put`. */
  lemma {:induction false} PutAllSnoc<K(!new), V>(m: Entries<K, V>, es: seq<(K, V)>, e: (K, V))
    ensures PutAll(m, es + [e]) == Put(PutAll(m, es), e.0, e.1)
    decreases |es|
  {
    if |es| == 0 {
      assert es + [e] == [e];
      assert [e][1..] == [];
    } else {
      assert (es + [e])[1..] == es[1..] + [e];
      PutAllSnoc(Put(m, es[0].0, es[0].1), es[1..], e);
    }
  }

  /** The keys of the accumulated map are the written keys in first-seen order. */
  lemma {:induction false} PutAllKeys<K(!new), V>(es: seq<(K, V)>)
    ensures Keys(PutAll([], es)) == FirstSeen(Keys(es))
    decreases |es|
  {
    if |es| > 0 {
      var init, e := es[..|es| - 1], es[|es| - 1];
      assert es == init + [e];
      assert Keys(es)[..|es| - 1] == Keys(init);
      PutAllKeys(init);
      PutAllSnoc([], init, e);
    }
  }

  /** Each key holds the value last written under it. */
  lemma {:induction false} PutAllLookup<K(!new), V>(es: seq<(K, V)>, k: K)
    ensures Lookup(PutAll([], es), k) == LastValue(es, k)
    decreases |es|
  {
    if |es| > 0 {
      var init, e := es[..|es| - 1], es[|es| - 1];
      assert es == init + [e];
      PutAllLookup(init, k);
      PutAllSnoc([], init, e);
    }
  }

  /** Under distinct keys the value found for the key of an entry is that entry's. */
  lemma {:induction false} LookupAt<K, V>(m: Entries<K, V>, i: nat)
    requires Distinct(Keys(m)) && i < |m|
    ensures Lookup(m, m[i].0) == Some(m[i].1)
    decreases i
  {
    if i > 0 {
      assert Keys(m)[0] != Keys(m)[i];
      assert Keys(m[1..]) == Keys(m)[1..];
      LookupAt(m[1..], i - 1);
    }
  }

  /** The accumulator in full: one entry per distinct key, in first-seen
      order, each carrying the last value written under it. */
  lemma Accumulate<K(!new), V>(es: seq<(K, V)>)
    ensures var m := PutAll([], es);
      && Keys(m) == FirstSeen(Keys(es))
      && Distinct(Keys(m))
      && forall i :: 0 <= i < |m| ==> LastValue(es, Keys(m)[i]) == Some(Values(m)[i])
  {
    var m := PutAll([], es);
    PutAllKeys(es);
    PutAllKeepsDistinct([], es);
    forall i | 0 <= i < |m| ensures LastValue(es, Keys(m)[i]) == Some(Values(m)[i]) {
      LookupAt(m, i);
      PutAllLookup(es, m[i].0);
    }
  }

  /** A key not yet present is appended at the end. */
  lemma {:induction false} PutNew<K(!new), V>(m: Entries<K, V>, k: K, v: V)
    requires k !in Keys(m)
    ensures Put(m, k, v) == m + [(k, v)]
    decreases |m|
  {
    if |m| > 0 {
      assert Keys(m)[0] == m[0].0;
      assert Keys(m[1..]) == Keys(m)[1..];
      assert m == [m[0]] + m[1..];
      PutNew(m[1..], k, v);
      assert [m[0]] + (m[1..] + [(k, v)]) == m + [(k, v)];
    }
  }

  /** `Put` past a front entry with another key. */
  lemma PutPast<K(!new), V>(m: Entries<K, V>, k: K, v: V)
    requires |m| > 0 && m[0].0 != k
    ensures Put(m, k, v) == [m[0]] + Put(m[1..], k, v)
  {
  }

  lemma SpliceCons<T>(e: T, t: seq<T>, j: nat, x: T)
    requires j < |t|
    ensures [e] + (t[..j] + [x] + t[j + 1..]) == ([e] + t)[..j + 1] + [x] + ([e] + t)[j + 2..]
  {
    assert ([e] + t)[..j + 1] == [e] + t[..j];
    assert ([e] + t)[j + 2..] == t[j + 1..];
  }

  lemma KeysTail<K, V>(m: Entries<K, V>)
    requires |m| > 0
    ensures Keys(m[1..]) == Keys(m)[1..]
  {
  }

  lemma DistinctTail<K, V>(m: Entries<K, V>, i: nat)
    requires Distinct(Keys(m)) && 0 < i < |m|
    ensures Distinct(Keys(m[1..])) && m[0].0 != m[i].0 && m[1..][i - 1] == m[i]
  {
    assert Keys(m)[0] != Keys(m)[i];
    KeysTail(m);
  }

  lemma ReplaceFront<K(!new), V>(m: Entries<K, V>, v: V)
    requires |m| > 0
    ensures Put(m, m[0].0, v) == m[..0] + [(m[0].0, v)] + m[1..]
  {
    assert m == [m[0]] + m[1..];
    assert m[..0] + [(m[0].0, v)] + m[1..] == [(m[0].0, v)] + m[1..];
  }

  /** A key already present has its value replaced where it stands. */
  lemma {:induction false} PutExisting<K(!new), V>(m: Entries<K, V>, i: nat, v: V)
    requires Distinct(Keys(m)) && i < |m|
    ensures Put(m, m[i].0, v) == m[..i] + [(m[i].0, v)] + m[i + 1..]
    decreases i
  {
    if i == 0 {
      ReplaceFront(m, v);
    } else {
      DistinctTail(m, i);
      PutPast(m, m[i].0, v);
      PutExisting(m[1..], i - 1, v);
      SpliceCons(m[0], m[1..], i - 1, (m[i].0, v));
      ConsTail(m);
    }
  }

  lemma ConsTail<T>(m: seq<T>)
    requires |m| > 0
    ensures [m[0]] + m[1..] == m
  {
  }

  /** Applying a sequence that starts with `e` is putting `e` first. */
  lemma PutAllCons<K(!new), V>(m: Entries<K, V>, e: (K, V), es: seq<(K, V)>)
    ensures PutAll(m, [e] + es) == PutAll(Put(m, e.0, e.1), es)
  {
    assert ([e] + es)[0] == e && ([e] + es)[1..] == es;
  }

  /** Writing `a`, `b`, `b2` and `c`, where `b2` reuses the key of `b`, keeps
      `b`'s place and takes `b2`'s value: the output is `a`, `b2`, `c`. */
  lemma OverwriteKeepsPlace<K(!new), V>(a: (K, V), b: (K, V), b2: (K, V), c: (K, V))
    requires b2.0 == b.0 && a.0 != b.0 && a.0 != c.0 && b.0 != c.0
    ensures PutAll([], [a, b, b2, c]) == [a, b2, c]
  {
    var m1, m2, m3 := [a], [a, b], [a, b2];
    WriteOne(a);
    PutAfterOne(a, b);
    ReplaceSecond(a, b, b2.1);
    PutAfterTwo(a, b2, c);
    PutAllCons([], a, [b, b2, c]);
    PutAllCons(m1, b, [b2, c]);
    PutAllCons(m2, b2, [c]);
    PutAllCons(m3, c, []);
    FourShape(a, b, b2, c);
  }

  lemma FourShape<T>(a: T, b: T, b2: T, c: T)
    ensures [a] + [b, b2, c] == [a, b, b2, c] && [b] + [b2, c] == [b, b2, c]
    ensures [b2] + [c] == [b2, c] && [c] + [] == [c]
  {
  }

  lemma WriteOne<K(!new), V>(a: (K, V))
    ensures Put([], a.0, a.1) == [a]
  {
  }

  lemma PutAfterOne<K(!new), V>(a: (K, V), b: (K, V))
    requires a.0 != b.0
    ensures Put([a], b.0, b.1) == [a, b]
  {
    PutNew([a], b.0, b.1);
  }

  lemma ReplaceSecond<K(!new), V>(a: (K, V), b: (K, V), v: V)
    requires a.0 != b.0
    ensures Put([a, b], b.0, v) == [a, (b.0, v)]
  {
    PutExisting([a, b], 1, v);
    assert [a, b][..1] + [(b.0, v)] + [a, b][2..] == [a, (b.0, v)];
  }

  lemma PutAfterTwo<K(!new), V>(a: (K, V), b: (K, V), c: (K, V))
    requires a.0 != c.0 && b.0 != c.0
    ensures Put([a, b], c.0, c.1) == [a, b, c]
  {
    PutNew([a, b], c.0, c.1);
  }
}

=== FILE: phpnumeric.dfy ===
/** PHP's reading of a "leading-numeric" string, as done by the `(float)` cast
    and by `intval`: optional leading whitespace, an optional sign, a decimal
    mantissa with at least one digit and an optional exponent; anything after
    that prefix is ignored and a string with no such prefix reads as zero.
    Values are exact rationals here rather than IEEE doubles. */
module PhpNumeric {
  import opened Digits
  import opened Wrappers

  /** The whitespace PHP skips in front of a numeric string. */
  predicate IsWhitespace(c: char)
  {
    c == ' ' || c == '\t' || c == '\n' || c == '\r' || c == '\U{B}' || c == '\U{C}'
  }

  /** Length of the run of digits at the front of `s`. */
  function DigitPrefix(s: string): (n: nat)
    ensures n <= |s| && forall k :: 0 <= k < n ==> IsDigit(s[k])
    ensures n == |s| || !IsDigit(s[n])
  {
    if |s| > 0 && IsDigit(s[0]) then 1 + DigitPrefix(s[1..]) else 0
  }

  /** Length of the run of whitespace at the front of `s`. */
  function WhitespacePrefix(s: string): (n: nat)
    ensures n <= |s| && forall k :: 0 <= k < n ==> IsWhitespace(s[k])
    ensures n == |s| || !IsWhitespace(s[n])
  {
    if |s| > 0 && IsWhitespace(s[0]) then 1 + WhitespacePrefix(s[1..]) else 0
  }

  /** Drops a leading sign, reporting whether it was a minus. */
  function Unsigned(t: string): (r: (bool, string))
    ensures r.0 ==> |t| > 0 && t[0] == '-'
    ensures r.1 == t || (|t| > 0 && r.1 == t[1..] && (t[0] == '-' || t[0] == '+'))
  {
    if |t| > 0 && (t[0] == '-' || t[0] == '+') then (t[0] == '-', t[1..]) else (false, t)
  }

  /** A numeric prefix, split into its parts. `point` records a decimal point,
      which may be followed by no digits ("5."). */
  datatype Numeral = Numeral(negative: bool, whole: string, point: bool, fraction: string,
                             expNegative: bool, exponent: string)
  {
    predicate Valid()
    {
      && AllDigits(whole) && AllDigits(fraction) && AllDigits(exponent)
      && |whole| + |fraction| > 0
      && (!point ==> |fraction| == 0)
      && (|exponent| == 0 ==> !expNegative)
    }

    /** The canonical spelling of the numeral. */
    function Render(): string
    {
      (if negative then "-" else "") + MantissaText() + ExponentText()
    }

    function MantissaText(): string
    {
      whole + (if point then "." + fraction else "")
    }

    function ExponentText(): string
    {
      if |exponent| > 0 then "e" + (if expNegative then "-" else "") + exponent else ""
    }

    /** The exact value: sign * whole.fraction * 10^(+/-exponent). */
    function Value(): real
      requires Valid()
    {
      var mantissa := Digits.Value(whole + fraction) as real / Pow10(|fraction|) as real;
      var e := Pow10(Digits.Value(exponent)) as real;
      var magnitude := if expNegative then mantissa / e else mantissa * e;
      if negative then -magnitude else magnitude
    }
  }

  /** The exponent at the front of `x`, if there is one: an `e` or `E`, an
      optional sign and at least one digit. Returns its sign and its digits. */
  function ExponentOf(x: string): (r: (bool, string))
    ensures AllDigits(r.1) && (|r.1| == 0 ==> !r.0)
  {
    if |x| > 0 && (x[0] == 'e' || x[0] == 'E') then
      var (negative, z) := Unsigned(x[1..]);
      var e := DigitPrefix(z);
      if e > 0 then (negative, z[..e]) else (false, "")
    else
      (false, "")
  }

  /** Splits the front of `u` into the digits before a decimal point, whether
      there is a point, the digits after it, and what follows the mantissa. */
  function Mantissa(u: string): (r: (string, bool, string, string))
    ensures AllDigits(r.0) && AllDigits(r.2) && (!r.1 ==> r.2 == "")
  {
    var w := DigitPrefix(u);
    var v := u[w..];
    if |v| > 0 && v[0] == '.' then
      var t := v[1..];
      var f := DigitPrefix(t);
      (u[..w], true, t[..f], t[f..])
    else
      (u[..w], false, "", v)
  }

  /** The numeral spelled at the front of `u`, which follows the sign. */
  function UnsignedNumeral(negative: bool, u: string): (r: Option<Numeral>)
    ensures r.Some? ==> r.value.Valid()
  {
    var (whole, point, fraction, after) := Mantissa(u);
    if |whole| + |fraction| == 0 then None
    else
      var exp := ExponentOf(after);
      Some(Numeral(negative, whole, point, fraction, exp.0, exp.1))
  }

  /** The leading numeric prefix of `s`, if it has one. */
  function LeadingNumeral(s: string): (r: Option<Numeral>)
    ensures r.Some? ==> r.value.Valid()
  {
    var t := Unsigned(s[WhitespacePrefix(s)..]);
    UnsignedNumeral(t.0, t.1)
  }

  /** `(float) $s`. */
  function FloatCast(s: string): real
  {
    match LeadingNumeral(s)
    case None => 0.0
    case Some(n) => n.Value()
  }

  /** Conversion of a real to an integer, dropping the fraction toward zero. */
  function Truncate(x: real): (r: int)
    ensures x >= 0.0 ==> r as real <= x < r as real + 1.0
    ensures x < 0.0 ==> r as real - 1.0 < x <= r as real
  {
    if x >= 0.0 then x.Floor else -((-x).Floor)
  }

  /** `intval($s)`: the numeric prefix, truncated toward zero. */
  function IntVal(s: string): int
  {
    Truncate(FloatCast(s))
  }

  /** A character that could not continue a numeric prefix. */
  predicate Stops(rest: string)
  {
    |rest| == 0 || !(IsDigit(rest[0]) || rest[0] == '.' || rest[0] == 'e' || rest[0] == 'E')
  }

  lemma DigitPrefixExact(a: string, b: string)
    requires AllDigits(a) && (|b| == 0 || !IsDigit(b[0]))
    ensures DigitPrefix(a + b) == |a|
  {
    var s := a + b;
    var d := DigitPrefix(s);
    assert s[..|a|] == a;
  }

  /** A sign in front of digits is dropped and reported. */
  lemma UnsignedSign(negative: bool, z: string)
    requires |z| > 0 && IsDigit(z[0])
    ensures Unsigned((if negative then "-" else "") + z) == (negative, z)
  {
    var t := (if negative then "-" else "") + z;
    if negative {
      assert t[0] == '-' && t[1..] == z;
    } else {
      assert t == z;
    }
  }

  /** A non-empty exponent `e`, `e-` followed by digits, reads back as itself. */
  lemma ExponentDigits(negative: bool, e: string, rest: string)
    requires |e| > 0 && AllDigits(e) && Stops(rest)
    ensures ExponentOf("e" + (if negative then "-" else "") + e + rest) == (negative, e)
  {
    var z := e + rest;
    var x := "e" + (if negative then "-" else "") + e + rest;
    assert x[0] == 'e';
    assert x[1..] == (if negative then "-" else "") + z;
    assert z[0] == e[0];
    UnsignedSign(negative, z);
    DigitPrefixExact(e, rest);
  }

  /** The rendered exponent reads back as itself. */
  lemma ExponentRendered(n: Numeral, rest: string)
    requires n.Valid() && Stops(rest)
    ensures ExponentOf(n.ExponentText() + rest) == (n.expNegative, n.exponent)
  {
    if |n.exponent| > 0 {
      ExponentDigits(n.expNegative, n.exponent, rest);
    } else {
      assert n.ExponentText() + rest == rest;
    }
  }

  /** The digits after a decimal point and what follows them. */
  lemma FractionRendered(fraction: string, after: string)
    requires AllDigits(fraction) && (|after| == 0 || !IsDigit(after[0]))
    ensures var t := fraction + after;
      DigitPrefix(t) == |fraction| && t[..|fraction|] == fraction && t[|fraction|..] == after
  {
    DigitPrefixExact(fraction, after);
  }

  lemma WholeRendered(n: Numeral, after: string)
    requires n.Valid()
    requires |after| == 0 || !IsDigit(after[0])
    requires !n.point ==> |after| == 0 || after[0] != '.'
    ensures var v := (if n.point then "." + n.fraction else "") + after;
      var u := n.MantissaText() + after;
      DigitPrefix(u) == |n.whole| && u[..|n.whole|] == n.whole && u[|n.whole|..] == v
  {
    var v := (if n.point then "." + n.fraction else "") + after;
    var u := n.MantissaText() + after;
    assert u == n.whole + v;
    assert |v| == 0 || !IsDigit(v[0]);
    DigitPrefixExact(n.whole, v);
  }

  /** A rendered mantissa reads back as its parts. */
  lemma MantissaRendered(n: Numeral, after: string)
    requires n.Valid()
    requires |after| == 0 || !IsDigit(after[0])
    requires !n.point ==> |after| == 0 || after[0] != '.'
    ensures Mantissa(n.MantissaText() + after) == (n.whole, n.point, n.fraction, after)
  {
    WholeRendered(n, after);
    if n.point {
      var v := "." + n.fraction + after;
      assert v[1..] == n.fraction + after;
      FractionRendered(n.fraction, after);
    }
  }

  /** The mantissa and exponent read back as themselves. */
  lemma UnsignedRendered(n: Numeral, rest: string)
    requires n.Valid() && Stops(rest)
    ensures UnsignedNumeral(n.negative, n.MantissaText() + n.ExponentText() + rest) == Some(n)
  {
    var after := n.ExponentText() + rest;
    assert n.MantissaText() + n.ExponentText() + rest == n.MantissaText() + after;
    MantissaRendered(n, after);
    ExponentRendered(n, rest);
  }

  /** Text that starts with a digit or a point, possibly after a minus sign,
      is read from there on with that sign. */
  lemma LeadingNumeralSigned(negative: bool, u: string)
    requires |u| > 0 && (IsDigit(u[0]) || u[0] == '.')
    ensures LeadingNumeral((if negative then "-" else "") + u) == UnsignedNumeral(negative, u)
  {
    var s := (if negative then "-" else "") + u;
    assert !IsWhitespace(s[0]);
    assert WhitespacePrefix(s) == 0;
    assert s[0..] == s;
    if negative {
      assert s[1..] == u;
    }
    assert Unsigned(s) == (negative, u);
  }

  /** Reading back the canonical spelling of a numeral, followed by anything
      that cannot extend it, gives that numeral. */
  lemma ParseRendered(n: Numeral, rest: string)
    requires n.Valid() && Stops(rest)
    ensures LeadingNumeral(n.Render() + rest) == Some(n)
  {
    var u := n.MantissaText() + n.ExponentText() + rest;
    RenderSplits(n, rest);
    LeadingNumeralSigned(n.negative, u);
    UnsignedRendered(n, rest);
  }

  lemma MantissaStart(n: Numeral)
    requires n.Valid()
    ensures var m := n.MantissaText(); |m| > 0 && (IsDigit(m[0]) || m[0] == '.')
  {
    var m := n.MantissaText();
    if |n.whole| > 0 {
      assert m[0] == n.whole[0];
    } else {
      assert n.point && m[0] == '.';
    }
  }

  lemma RenderSplits(n: Numeral, rest: string)
    requires n.Valid()
    ensures var u := n.MantissaText() + n.ExponentText() + rest;
      && n.Render() + rest == (if n.negative then "-" else "") + u
      && |u| > 0 && (IsDigit(u[0]) || u[0] == '.')
  {
    var m, x := n.MantissaText(), n.ExponentText();
    MantissaStart(n);
    assert (m + x + rest)[0] == m[0];
    SignedConcat(n.negative, m, x, rest);
  }

  lemma SignedConcat(negative: bool, m: string, x: string, rest: string)
    ensures (if negative then "-" else "") + m + x + rest == (if negative then "-" else "") + (m + x + rest)
  {
  }

  /** The numeral of a plain run of digits. */
  function Plain(ds: string): (n: Numeral)
    requires |ds| > 0 && AllDigits(ds)
    ensures n.Valid() && n.Render() == ds && n.Value() == Value(ds) as real
  {
    var n := Numeral(false, ds, false, "", false, "");
    assert n.MantissaText() == ds + "" == ds;
    assert Pow10(Value("")) == 1;
    n
  }

  /** A plain run of digits reads as the natural number it spells. */
  lemma FloatCastOfDigits(ds: string, rest: string)
    requires |ds| > 0 && AllDigits(ds) && Stops(rest)
    ensures FloatCast(ds + rest) == Value(ds) as real
    ensures IntVal(ds + rest) == Value(ds)
  {
    ParseRendered(Plain(ds), rest);
  }

  /** The numeral of a decimal `ds.fs`. */
  function Decimal(ds: string, fs: string): (n: Numeral)
    requires AllDigits(ds) && AllDigits(fs) && |ds| + |fs| > 0
    ensures n.Valid() && n.Render() == ds + "." + fs
    ensures n.Value() == Value(ds + fs) as real / Pow10(|fs|) as real
  {
    var n := Numeral(false, ds, true, fs, false, "");
    assert n.MantissaText() == ds + ("." + fs);
    assert n.ExponentText() == "";
    assert Pow10(Value("")) == 1;
    n
  }

  /** A decimal `ds.fs` reads as the exact rational it spells. */
  lemma FloatCastOfDecimal(ds: string, fs: string, rest: string)
    requires AllDigits(ds) && AllDigits(fs) && |ds| + |fs| > 0 && Stops(rest)
    ensures FloatCast(ds + "." + fs + rest) == Value(ds + fs) as real / Pow10(|fs|) as real
  {
    ParseRendered(Decimal(ds, fs), rest);
  }

  /** Text that does not begin like a number reads as zero. */
  lemma NonNumericIsZero(s: string)
    requires |s| == 0 || !(IsWhitespace(s[0]) || IsDigit(s[0]) || s[0] in {'+', '-', '.'})
    ensures FloatCast(s) == 0.0 && IntVal(s) == 0
  {
  }
}

=== FILE: phpstring.dfy ===
/** The three PHP string builtins the extractors rely on: `str_contains`,
    `str_replace` with an empty replacement, and `ltrim` with a character list. */
module PhpString {

  /** `pat` occurs in `s` starting at index `i`. */
  predicate OccursAt(s: string, pat: string, i: int)
  {
    0 <= i && i + |pat| <= |s| && s[i..i + |pat|] == pat
  }

  /** `str_contains($s, $pat)`: a case-sensitive substring test. */
  function Contains(s: string, pat: string): (r: bool)
    ensures r <==> exists i :: OccursAt(s, pat, i)
    decreases |s|
  {
    if pat <= s then
      assert OccursAt(s, pat, 0);
      true
    else if |s| == 0 then
      false
    else
      var r := Contains(s[1..], pat);
      if r then
        var i :| OccursAt(s[1..], pat, i);
        assert s[1..][i..i + |pat|] == s[i + 1..i + 1 + |pat|];
        assert OccursAt(s, pat, i + 1);
        r
      else
        assert forall i :: OccursAt(s, pat, i) ==> i >= 1 && OccursAt(s[1..], pat, i - 1);
        r
  }

  /** `str_replace($pat, '', $s)`: scanning left to right, every occurrence of
      `pat` that does not overlap an earlier removed one is cut out. An empty
      `pat` leaves `s` unchanged, as in PHP. */
  function RemoveAll(s: string, pat: string): (r: string)
    ensures |r| <= |s|
    ensures !Contains(s, pat) ==> r == s
    ensures |pat| > 0 && Contains(s, pat) ==> |r| < |s|
    decreases |s|
  {
    if |pat| == 0 || |s| == 0 then s
    else if pat <= s then
      var rest := RemoveAll(s[|pat|..], pat);
      rest
    else
      var rest := RemoveAll(s[1..], pat);
      if !Contains(s, pat) then
        assert !Contains(s[1..], pat);
        [s[0]] + rest
      else
        assert Contains(s[1..], pat) by {
          var i :| OccursAt(s, pat, i);
          assert i != 0;
          assert s[i..i + |pat|] == s[1..][i - 1..i - 1 + |pat|];
          assert OccursAt(s[1..], pat, i - 1);
        }
        [s[0]] + rest
  }

  /** `ltrim($s, $chars)`: drops the longest prefix made only of characters in `chars`. */
  function LTrim(s: string, chars: set<char>): (r: string)
    ensures |r| <= |s| && r == s[|s| - |r|..]
    ensures forall i :: 0 <= i < |s| - |r| ==> s[i] in chars
    ensures |r| > 0 ==> r[0] !in chars
    decreases |s|
  {
    if |s| > 0 && s[0] in chars then LTrim(s[1..], chars) else s
  }

  /** No two occurrences of `pat` can overlap: no proper suffix is also a prefix. */
  predicate BorderFree(pat: string)
  {
    forall k :: 0 < k < |pat| ==> !(pat[k..] <= pat)
  }

  /** A border-free pattern found at the start of `s` is not found again before it ends. */
  lemma NoOverlap(pat: string, s: string, k: nat)
    requires BorderFree(pat) && 0 < k < |pat| && pat <= s
    ensures !(pat <= s[k..])
  {
    assert !(pat[k..] <= pat);
    assert s[k..|pat|] == pat[k..];
  }

  /** `str_replace` removes an occurrence wherever it stands, not only a leading
      one: a copy of a border-free pattern splits the text into two parts that
      are cleaned independently. */
  lemma {:induction false} RemoveAllSplits(x: string, pat: string, y: string)
    requires |pat| > 0 && BorderFree(pat)
    ensures RemoveAll(x + pat + y, pat) == RemoveAll(x, pat) + RemoveAll(y, pat)
    decreases |x|
  {
    if |x| == 0 {
      LeadingPattern(pat, y);
      assert x + pat + y == pat + y;
    } else if pat <= x + pat + y {
      LeadingInLeft(x, pat, y);
      RemoveAllSplits(x[|pat|..], pat, y);
    } else {
      LeadingChar(x, pat, y);
      RemoveAllSplits(x[1..], pat, y);
      ConsAppend(x[0], RemoveAll(x[1..], pat), RemoveAll(y, pat));
    }
  }

  lemma LeadingPattern(pat: string, y: string)
    requires |pat| > 0
    ensures RemoveAll(pat + y, pat) == RemoveAll(y, pat)
  {
    var s := pat + y;
    assert pat <= s;
    assert s[|pat|..] == y;
  }

  /** A border-free pattern at the start of `x + pat + y` with `x` non-empty
      lies inside `x`, so both sides drop it. */
  lemma LeadingInLeft(x: string, pat: string, y: string)
    requires |pat| > 0 && BorderFree(pat) && |x| > 0 && pat <= x + pat + y
    ensures |pat| <= |x|
    ensures RemoveAll(x + pat + y, pat) == RemoveAll(x[|pat|..] + pat + y, pat)
    ensures RemoveAll(x, pat) == RemoveAll(x[|pat|..], pat)
  {
    var s := x + pat + y;
    if |x| < |pat| {
      assert s[|x|..] == pat + y;
      NoOverlap(pat, s, |x|);
      assert false;
    }
    assert x[..|pat|] == s[..|pat|];
    assert pat <= x;
    assert s[|pat|..] == x[|pat|..] + pat + y;
  }

  /** Without the pattern at the front, both sides keep the first character. */
  lemma LeadingChar(x: string, pat: string, y: string)
    requires |pat| > 0 && |x| > 0 && !(pat <= x + pat + y)
    ensures RemoveAll(x + pat + y, pat) == [x[0]] + RemoveAll(x[1..] + pat + y, pat)
    ensures RemoveAll(x, pat) == [x[0]] + RemoveAll(x[1..], pat)
  {
    var s := x + pat + y;
    assert !(pat <= x);
    assert s[0] == x[0] && s[1..] == x[1..] + pat + y;
  }

  lemma ConsAppend(c: char, a: string, b: string)
    ensures [c] + (a + b) == [c] + a + b
  {
  }

  /** The text is left unchanged exactly when the pattern does not occur in it. */
  lemma RemoveAllUnchangedIff(s: string, pat: string)
    requires |pat| > 0
    ensures RemoveAll(s, pat) == s <==> !Contains(s, pat)
  {
  }

  /** `ltrim` drops exactly a leading run of listed characters: what follows
      the run is returned whole. */
  lemma {:induction false} LTrimPrefix(p: string, t: string, chars: set<char>)
    requires forall i :: 0 <= i < |p| ==> p[i] in chars
    requires |t| == 0 || t[0] !in chars
    ensures LTrim(p + t, chars) == t
    decreases |p|
  {
    if |p| > 0 {
      assert (p + t)[1..] == p[1..] + t;
      LTrimPrefix(p[1..], t, chars);
    } else {
      assert p + t == t;
    }
  }

  /** Characters that cannot start the pattern do not change whether it occurs. */
  lemma {:induction false} ContainsAfter(x: string, u: string, pat: string)
    requires |pat| > 0 && forall i :: 0 <= i < |x| ==> x[i] != pat[0]
    ensures Contains(x + u, pat) == Contains(u, pat)
    decreases |x|
  {
    if |x| > 0 {
      assert (x + u)[1..] == x[1..] + u;
      assert !(pat <= x + u) by {
        assert (x + u)[0] == x[0];
      }
      ContainsAfter(x[1..], u, pat);
    } else {
      assert x + u == u;
    }
  }

  /** Trimming a wider set changes nothing when what the narrower set leaves
      does not start with a character of the wider one. */
  lemma LTrimWider(s: string, narrow: set<char>, wide: set<char>)
    requires narrow <= wide
    requires var t := LTrim(s, narrow); |t| == 0 || t[0] !in wide
    ensures LTrim(s, wide) == LTrim(s, narrow)
  {
    var t := LTrim(s, narrow);
    var p := s[..|s| - |t|];
    assert s == p + t;
    LTrimPrefix(p, t, wide);
  }
}

=== FILE: product.dfy ===
/** The scraped record. Every field of the PHP class that has no default
    starts out null; `isAvailable` starts out false and the two shipping
    fields start out null explicitly. */
module ProductRecord {
  import opened Wrappers

  datatype Product = Product(
    title: Option<string>,
    price: Option<real>,
    imageUrl: Option<string>,
    capacityMB: Option<int>,
    colour: Option<string>,
    availabilityText: Option<string>,
    isAvailable: bool,
    shippingText: Option<string>,
    shippingDate: Option<string>)

  /** `new Product()`. */
  function Fresh(): Product
  {
    Product(None, None, None, None, None, None, false, None, None)
  }
}

=== FILE: productexamples.dfy ===
/** Worked product texts: what the extractors give for concrete capacity,
    price and availability texts, through the general lemmas. The small
    lemmas split a literal text into the parts those lemmas expect. */
module ProductExamples {
  import opened Wrappers
  import opened Digits
  import opened PhpString
  import opened PhpNumeric
  import opened Calendar
  import opened ProductRecord
  import opened Extraction
  import Scrape
  import ProductItemHelper

  lemma NotMegabytes(unit: string)
    requires unit == "GB"
    ensures Stops(unit) && !Contains(unit, "MB")
  {
  }

  lemma Megabytes(unit: string)
    requires unit == "MB"
    ensures Stops(unit) && Contains(unit, "MB")
  {
    assert OccursAt(unit, "MB", 0);
  }

  lemma ThreeDigits(ds: string, n: nat)
    requires |ds| == 3 && AllDigits(ds)
    requires n == 100 * DigitValue(ds[0]) + 10 * DigitValue(ds[1]) + DigitValue(ds[2])
    ensures Value(ds) == n
  {
    ValueOfThree(ds);
  }

  /** "128GB" is not in megabytes, so it is multiplied by 1024. */
  lemma Capacity128GB(text: string)
    requires text == "128GB"
    ensures ExtractCapacity(Some(text)) == Some(131072)
  {
    var ds, unit := text[..3], text[3..];
    assert ds == "128" && unit == "GB" && text == ds + unit;
    ThreeDigits(ds, 128);
    NotMegabytes(unit);
    CapacityOfDigits(ds, unit);
  }

  /** "512MB" is already in megabytes. */
  lemma Capacity512MB(text: string)
    requires text == "512MB"
    ensures ExtractCapacity(Some(text)) == Some(512)
  {
    var ds, unit := text[..3], text[3..];
    assert ds == "512" && unit == "MB" && text == ds + unit;
    ThreeDigits(ds, 512);
    Megabytes(unit);
    CapacityOfDigits(ds, unit);
  }

  lemma PoundSigns(symbols: string, trim: set<char>)
    requires forall i :: 0 <= i < |symbols| ==> symbols[i] == '\U{A3}'
    requires '\U{A3}' in trim
    ensures forall i :: 0 <= i < |symbols| ==> symbols[i] in trim
  {
  }

  /** "£199" is 199 for `Scrape`. */
  lemma Price199(text: string)
    requires text == "\U{A3}199"
    ensures ExtractPrice(Scrape.PriceTrim, Some(text)) == Some(199.0)
  {
    var symbols, ds := text[..1], text[1..];
    assert symbols == "\U{A3}" && ds == "199" && text == symbols + ds + "";
    ThreeDigits(ds, 199);
    PoundSigns(symbols, Scrape.PriceTrim);
    PriceOfDigits(Scrape.PriceTrim, symbols, ds, "");
  }

  lemma DecimalValue(ds: string, fs: string)
    requires ds == "399" && fs == "99"
    ensures AllDigits(ds) && AllDigits(fs) && Value(ds + fs) as real / Pow10(|fs|) as real == 399.99
  {
    ValueOfThree(ds);
    ValueOfTwo(fs);
    ValueAppend(ds, fs);
    assert Pow10(2) == 100;
  }

  /** "£399.99" is 399.99 for `Scrape`, exactly. */
  lemma Price399(text: string)
    requires text == "\U{A3}399.99"
    ensures ExtractPrice(Scrape.PriceTrim, Some(text)) == Some(399.99)
  {
    var symbols, ds, fs := text[..1], text[1..4], text[5..];
    assert symbols == "\U{A3}" && ds == "399" && fs == "99";
    assert text == symbols + ds + "." + fs + "";
    DecimalValue(ds, fs);
    PoundSigns(symbols, Scrape.PriceTrim);
    PriceOfDecimal(Scrape.PriceTrim, symbols, ds, fs, "");
  }

  /** "££5" is 5 for the helper: every leading pound sign goes. */
  lemma HelperDoublePound(text: string)
    requires text == "\U{A3}\U{A3}5"
    ensures ExtractPrice(ProductItemHelper.PriceTrim, Some(text)) == Some(5.0)
  {
    var symbols, ds := text[..2], text[2..];
    assert symbols == "\U{A3}\U{A3}" && ds == "5" && text == symbols + ds + "";
    assert Value(ds) == 5;
    PoundSigns(symbols, ProductItemHelper.PriceTrim);
    PriceOfDigits(ProductItemHelper.PriceTrim, symbols, ds, "");
  }

  /** Text shorter than the label cannot hold it. */
  lemma ShortTextHasNoLabel(t: string)
    requires |t| < |AvailabilityLabel|
    ensures !Contains(t, AvailabilityLabel)
  {
  }

  lemma InStockText(t: string)
    requires t == "In Stock"
    ensures !Contains(t, AvailabilityLabel) && IsAvailable(Some(t))
  {
    ShortTextHasNoLabel(t);
    assert OccursAt(t, InStock, 0);
  }

  lemma OutOfStockText(t: string)
    requires t == "Out of Stock"
    ensures !Contains(t, AvailabilityLabel) && !IsAvailable(Some(t))
  {
    ShortTextHasNoLabel(t);
    forall i | 0 <= i <= |t| - |InStock| ensures !OccursAt(t, InStock, i) {
      assert i == 0 || i == 1 || i == 2 || i == 3 || i == 4;
      assert t[i] != InStock[0];
    }
  }

  /** "Availability: In Stock" reads as "In Stock", which is available. */
  lemma InStockBlock(block: string, later: seq<string>)
    requires block == "Availability: In Stock"
    ensures AvailabilityText([block] + later) == Some("In Stock")
    ensures IsAvailable(AvailabilityText([block] + later))
  {
    var t := block[|AvailabilityLabel|..];
    assert t == "In Stock" && block == AvailabilityLabel + t;
    InStockText(t);
    LabelledAvailability(t, later);
  }

  /** "Availability: Out of Stock" reads as "Out of Stock", which is not. */
  lemma OutOfStockBlock(block: string, later: seq<string>)
    requires block == "Availability: Out of Stock"
    ensures AvailabilityText([block] + later) == Some("Out of Stock")
    ensures !IsAvailable(AvailabilityText([block] + later))
  {
    var t := block[|AvailabilityLabel|..];
    assert t == "Out of Stock" && block == AvailabilityLabel + t;
    OutOfStockText(t);
    LabelledAvailability(t, later);
  }

  /** A product with no availability blocks keeps the record's defaults:
      not available, and no availability, shipping text or shipping date. */
  lemma NoBlocksNoAvailability(f: Fragment, colour: string, today: Date)
    requires Valid(today) && |f.blocks| == 0
    ensures var r := Scrape.FetchProduct(f, colour, today);
      r.Success? ==> && !r.value.isAvailable
                     && r.value.availabilityText.None?
                     && r.value.shippingText.None?
                     && r.value.shippingDate.None?
  {
  }
}

=== FILE: productitemhelper.dfy ===
/** The `ProductItemHelper` class: a static copy of `Scrape`'s per-product
    extraction that takes the record to fill and the image base URL as
    parameters and strips only the pound sign before the price. */
module ProductItemHelper {
  import opened Wrappers
  import opened Digits
  import opened PhpNumeric
  import opened PhpString
  import opened Calendar
  import opened ProductRecord
  import opened Extraction
  import Scrape

  /** `ltrim($price, '£')`. */
  const PriceTrim: set<char> := {'\U{A3}'}

  /** The static `fetchProduct`, filling `item`. */
  function FetchProduct(item: Product, f: Fragment, colour: string, baseUrl: string, today: Date): (r: Result<Product, Fault>)
    requires Valid(today)
    ensures r.Failure? <==> f.heading.None? || |f.images| == 0
    ensures r.Success? ==> r.value.title == f.heading && r.value.colour == Some(colour)
    ensures r.Success? ==> r.value.price == ExtractPrice(PriceTrim, f.priceText)
    ensures r.Success? ==> r.value.imageUrl == Some(ImageUrl(baseUrl, f.images[0]))
    ensures r.Success? ==> r.value.capacityMB == ExtractCapacity(f.capacityText)
    ensures r.Success? ==> r.value.availabilityText == AvailabilityText(f.blocks)
    ensures r.Success? ==> r.value.isAvailable == IsAvailable(r.value.availabilityText)
    ensures r.Success? && |f.blocks| < 2 ==> r.value.shippingText.None? && r.value.shippingDate == item.shippingDate
    ensures r.Success? && |f.blocks| >= 2 ==> r.value.shippingText == Some(f.blocks[|f.blocks| - 1])
    ensures r.Success? && |f.blocks| >= 2 ==> r.value.shippingDate == ShippingDate.ExtractDate(f.blocks[|f.blocks| - 1], today)
  {
    FetchProductWith(PriceTrim, baseUrl, item, f, colour, today)
  }

  /** The two price extractors agree unless the pound signs are followed by
      an 'Â', which only the `Scrape` copy strips. */
  lemma PricesAgree(priceText: Option<string>)
    requires priceText.Some? ==> var t := LTrim(priceText.value, PriceTrim); |t| == 0 || t[0] != '\U{C2}'
    ensures ExtractPrice(PriceTrim, priceText) == ExtractPrice(Scrape.PriceTrim, priceText)
  {
    if priceText.Some? {
      LTrimWider(priceText.value, PriceTrim, Scrape.PriceTrim);
    }
  }

  /** On a fresh record and the `Scrape` base URL, the helper builds the same
      record as `Scrape` whenever their prices agree. */
  lemma FetchAgrees(f: Fragment, colour: string, today: Date)
    requires Valid(today)
    requires f.priceText.Some? ==> var t := LTrim(f.priceText.value, PriceTrim); |t| == 0 || t[0] != '\U{C2}'
    ensures FetchProduct(Fresh(), f, colour, Scrape.BaseUrl, today) == Scrape.FetchProduct(f, colour, today)
  {
    PricesAgree(f.priceText);
  }

  /** The condition is needed: "£Â5" is 0 for the helper, which stops at the
      'Â', and 5 for `Scrape`, which strips it. */
  lemma PricesDisagree(text: string)
    requires text == "\U{A3}\U{C2}5"
    ensures ExtractPrice(PriceTrim, Some(text)) == Some(0.0)
    ensures ExtractPrice(Scrape.PriceTrim, Some(text)) == Some(5.0)
  {
    HelperStopsAtCircumflex(text);
    ScrapeStripsCircumflex(text);
  }

  lemma HelperStopsAtCircumflex(text: string)
    requires text == "\U{A3}\U{C2}5"
    ensures ExtractPrice(PriceTrim, Some(text)) == Some(0.0)
  {
    var rest := "\U{C2}5";
    assert text == "\U{A3}" + rest;
    LTrimPrefix("\U{A3}", rest, PriceTrim);
    assert text != Sentinel;
    PriceNonNumeric(PriceTrim, text);
  }

  lemma ScrapeStripsCircumflex(text: string)
    requires text == "\U{A3}\U{C2}5"
    ensures ExtractPrice(Scrape.PriceTrim, Some(text)) == Some(5.0)
  {
    assert Value("5") == 5;
    assert text == "\U{A3}\U{C2}" + "5" + "";
    PriceOfDigits(Scrape.PriceTrim, "\U{A3}\U{C2}", "5", "");
  }
}

=== FILE: scrape.dfy ===
/** The `Scrape` class: the root listing is fetched for its page links, each
    page is fetched in turn, every (product, colour) pair on a page becomes a
    record, and the records are collected in an ordered map keyed by title
    and colour, whose values are the output. Fetching a document is a
    parameter: a function from URL to the document found there. */
module Scrape {
  import opened Wrappers
  import opened Calendar
  import opened ProductRecord
  import opened Extraction
  import opened OrderedMap

  const BaseUrl := "https://www.magpiehq.com/developer-challenge/smartphones"

  /** `ltrim($price, 'Â£')`: the two characters of the trim list. */
  const PriceTrim: set<char> := {'\U{C2}', '\U{A3}'}

  const PageQuery := "?page="

  /** A fetched document as its selectors see it.
      - pageLinks: the text of each `a` child of every `#pages div`, or
        None when there is no `#pages div` and `children()` throws
      - products: each `#products .product` element */
  datatype Document = Document(pageLinks: Option<seq<string>>, products: seq<Fragment>)

  /** `fetchProduct` on a new record, with the class's base URL and trim list. */
  function FetchProduct(f: Fragment, colour: string, today: Date): (r: Result<Product, Fault>)
    requires Valid(today)
    ensures r.Failure? <==> f.heading.None? || |f.images| == 0
    ensures r.Success? ==> r.value.title == f.heading && r.value.colour == Some(colour)
    ensures r.Success? ==> r.value.price == ExtractPrice(PriceTrim, f.priceText)
    ensures r.Success? ==> r.value.imageUrl == Some(ImageUrl(BaseUrl, f.images[0]))
    ensures r.Success? ==> r.value.imageUrl.Some? && |BaseUrl| <= |r.value.imageUrl.value| && r.value.imageUrl.value[..|BaseUrl|] == BaseUrl
    ensures r.Success? ==> r.value.capacityMB == ExtractCapacity(f.capacityText)
    ensures r.Success? ==> r.value.availabilityText == AvailabilityText(f.blocks)
    ensures r.Success? ==> r.value.isAvailable == IsAvailable(AvailabilityText(f.blocks))
    ensures r.Success? && |f.blocks| < 2 ==> r.value.shippingText.None? && r.value.shippingDate.None?
    ensures r.Success? && |f.blocks| >= 2 ==> r.value.shippingText == Some(f.blocks[|f.blocks| - 1])
    ensures r.Success? && |f.blocks| >= 2 ==> r.value.shippingDate == ShippingDate.ExtractDate(f.blocks[|f.blocks| - 1], today)
  {
    FetchProductWith(PriceTrim, BaseUrl, Fresh(), f, colour, today)
  }

  /** The key a record is stored under: title, a space, colour. */
  function Key(p: Product): string
  {
    p.title.GetOr("") + " " + p.colour.GetOr("")
  }

  /** The records paired with their keys, in order. */
  function Keyed(ps: seq<Product>): (es: seq<(string, Product)>)
    ensures |es| == |ps| && forall i :: 0 <= i < |ps| ==> es[i] == (Key(ps[i]), ps[i])
  {
    seq(|ps|, i requires 0 <= i < |ps| => (Key(ps[i]), ps[i]))
  }

  lemma KeyedAppend(ps: seq<Product>, qs: seq<Product>)
    ensures Keyed(ps + qs) == Keyed(ps) + Keyed(qs)
  {
  }

  /** When neither title holds a space, a key gives back its title and colour:
      the collision of `JoinedKeysCollide` needs a space in a title. */
  lemma KeySplitsAtSpace(p: Product, q: Product)
    requires ' ' !in p.title.GetOr("") && ' ' !in q.title.GetOr("")
    ensures Key(p) == Key(q) <==> p.title.GetOr("") == q.title.GetOr("") && p.colour.GetOr("") == q.colour.GetOr("")
  {
    var a, b := p.title.GetOr(""), q.title.GetOr("");
    if Key(p) == Key(q) {
      TitleEndsAtSpace(a, b, p.colour.GetOr(""), q.colour.GetOr(""));
      TitleEndsAtSpace(b, a, q.colour.GetOr(""), p.colour.GetOr(""));
      assert a == Key(p)[..|a|] && b == Key(q)[..|b|];
      assert p.colour.GetOr("") == Key(p)[|a| + 1..] && q.colour.GetOr("") == Key(q)[|b| + 1..];
    }
  }

  /** A title without spaces cannot be shorter than another one that meets it
      in the same joined key. */
  lemma TitleEndsAtSpace(a: string, b: string, c: string, d: string)
    requires ' ' !in b && a + " " + c == b + " " + d
    ensures |b| <= |a|
  {
    var k := a + " " + c;
    assert k[|a|] == ' ';
    assert forall i :: 0 <= i < |b| ==> k[i] == b[i];
  }

  /** The records one product yields: one per colour, in colour order. The
      fault does not depend on the colour, so the first colour raises it. */
  function Variants(f: Fragment, colours: seq<string>, today: Date): (r: Result<seq<Product>, Fault>)
    requires Valid(today)
    ensures r.Failure? <==> |colours| > 0 && (f.heading.None? || |f.images| == 0)
    ensures r.Failure? ==> FetchProduct(f, colours[0], today) == Failure(r.error)
    ensures r.Success? ==> |r.value| == |colours|
    ensures r.Success? ==> forall i :: 0 <= i < |colours| ==> FetchProduct(f, colours[i], today) == Success(r.value[i])
  {
    if |colours| > 0 && FetchProduct(f, colours[0], today).Failure? then
      Failure(FetchProduct(f, colours[0], today).error)
    else
      Success(seq(|colours|, i requires 0 <= i < |colours| => FetchProduct(f, colours[i], today).value))
  }

  /** The records of a list of products, in document order; the first fault
      met ends the harvest. */
  function Harvest(frags: seq<Fragment>, today: Date): Result<seq<Product>, Fault>
    requires Valid(today)
    decreases |frags|
  {
    if |frags| == 0 then Success([])
    else
      var f := frags[|frags| - 1];
      match Harvest(frags[..|frags| - 1], today)
      case Failure(e) => Failure(e)
      case Success(ps) =>
        match Variants(f, f.colours, today)
        case Failure(e) => Failure(e)
        case Success(qs) => Success(ps + qs)
  }

  /** A product that raises a fault once it is fetched for a colour. */
  predicate Broken(f: Fragment)
  {
    |f.colours| > 0 && (f.heading.None? || |f.images| == 0)
  }

  /** The number of (product, colour) pairs in a list of products. */
  function ColourCount(frags: seq<Fragment>): nat
    decreases |frags|
  {
    if |frags| == 0 then 0 else ColourCount(frags[..|frags| - 1]) + |frags[|frags| - 1].colours|
  }

  /** A harvest fails exactly when some product with a colour lacks a heading
      or an image; otherwise it holds one record per (product, colour) pair. */
  lemma {:induction false} HarvestFailsIff(frags: seq<Fragment>, today: Date)
    requires Valid(today)
    ensures Harvest(frags, today).Failure? <==> exists i :: 0 <= i < |frags| && Broken(frags[i])
    ensures Harvest(frags, today).Success? ==> |Harvest(frags, today).value| == ColourCount(frags)
    decreases |frags|
  {
    if |frags| > 0 {
      var init, f := frags[..|frags| - 1], frags[|frags| - 1];
      HarvestFailsIff(init, today);
      if exists i :: 0 <= i < |init| && Broken(init[i]) {
        var i :| 0 <= i < |init| && Broken(init[i]);
        assert frags[i] == init[i];
      }
      if exists i :: 0 <= i < |frags| && Broken(frags[i]) {
        var i :| 0 <= i < |frags| && Broken(frags[i]);
        if i < |init| {
          assert init[i] == frags[i];
        }
      }
    }
  }

  /** Harvesting one more product. */
  lemma HarvestLast(frags: seq<Fragment>, f: Fragment, today: Date)
    requires Valid(today)
    ensures Harvest(frags + [f], today) ==
      match Harvest(frags, today)
      case Failure(e) => Failure(e)
      case Success(ps) =>
        match Variants(f, f.colours, today)
        case Failure(e) => Failure(e)
        case Success(qs) => Success(ps + qs)
  {
    assert (frags + [f])[..|frags|] == frags;
  }

  lemma Reassociate<T>(a: seq<T>, b: seq<T>, c: seq<T>)
    ensures a + b + c == a + (b + c)
  {
  }

  /** Harvesting two lists one after the other: the faults of the first come
      first, and the records of the second follow those of the first. */
  lemma {:induction false} HarvestAppend(a: seq<Fragment>, b: seq<Fragment>, today: Date)
    requires Valid(today)
    ensures Harvest(a + b, today) ==
      match Harvest(a, today)
      case Failure(e) => Failure(e)
      case Success(ps) =>
        match Harvest(b, today)
        case Failure(e) => Failure(e)
        case Success(qs) => Success(ps + qs)
    decreases |b|
  {
    if |b| == 0 {
      assert a + b == a;
      if Harvest(a, today).Success? {
        assert Harvest(a, today).value + [] == Harvest(a, today).value;
      }
    } else {
      var init, f := b[..|b| - 1], b[|b| - 1];
      Reassociate(a, init, [f]);
      assert init + [f] == b;
      HarvestAppend(a, init, today);
      HarvestLast(a + init, f, today);
      HarvestLast(init, f, today);
      if Harvest(a, today).Success? && Harvest(init, today).Success? && Variants(f, f.colours, today).Success? {
        Reassociate(Harvest(a, today).value, Harvest(init, today).value, Variants(f, f.colours, today).value);
      }
    }
  }

  /** A fault in a prefix is the fault of the whole list. */
  lemma {:induction false} HarvestFaultInPrefix(frags: seq<Fragment>, n: nat, today: Date)
    requires Valid(today) && n <= |frags| && Harvest(frags[..n], today).Failure?
    ensures Harvest(frags, today) == Harvest(frags[..n], today)
    decreases |frags| - n
  {
    if n < |frags| {
      var init := frags[..|frags| - 1];
      assert init[..n] == frags[..n];
      HarvestFaultInPrefix(init, n, today);
    } else {
      assert frags[..n] == frags;
    }
  }

  /** The records a run accumulates, applied to the map `acc`. */
  function Accumulated(acc: Entries<string, Product>, h: Result<seq<Product>, Fault>): Result<Entries<string, Product>, Fault>
  {
    match h
    case Failure(e) => Failure(e)
    case Success(ps) => Success(PutAll(acc, Keyed(ps)))
  }

  /** Storing the records of `ps` and then of `qs` is storing those of `ps + qs`. */
  lemma {:induction false} PutAllAppend<K(!new), V>(m: Entries<K, V>, a: seq<(K, V)>, b: seq<(K, V)>)
    ensures PutAll(m, a + b) == PutAll(PutAll(m, a), b)
    decreases |a|
  {
    if |a| > 0 {
      assert (a + b)[0] == a[0] && (a + b)[1..] == a[1..] + b;
      PutAllAppend(Put(m, a[0].0, a[0].1), a[1..], b);
    } else {
      assert a + b == b;
    }
  }

  /** One more record stored is one more `Put` under its key. */
  lemma StoreOne(acc: Entries<string, Product>, ps: seq<Product>, p: Product)
    ensures PutAll(acc, Keyed(ps + [p])) == Put(PutAll(acc, Keyed(ps)), Key(p), p)
  {
    KeyedAppend(ps, [p]);
    assert Keyed([p]) == [(Key(p), p)];
    PutAllSnoc(acc, Keyed(ps), (Key(p), p));
  }

  /** Storing the records of two harvests in turn. */
  lemma StoreBoth(m: Entries<string, Product>, ps: seq<Product>, qs: seq<Product>)
    ensures PutAll(PutAll(m, Keyed(ps)), Keyed(qs)) == PutAll(m, Keyed(ps + qs))
  {
    KeyedAppend(ps, qs);
    PutAllAppend(m, Keyed(ps), Keyed(qs));
  }

  lemma VariantsStep(f: Fragment, colours: seq<string>, j: nat, today: Date)
    requires Valid(today) && j < |colours| && FetchProduct(f, colours[j], today).Success?
    ensures Variants(f, colours[..j], today).Success? && Variants(f, colours[..j + 1], today).Success?
    ensures Variants(f, colours[..j + 1], today).value == Variants(f, colours[..j], today).value + [FetchProduct(f, colours[j], today).value]
  {
    var a, b := Variants(f, colours[..j], today).value, Variants(f, colours[..j + 1], today).value;
    var c := a + [FetchProduct(f, colours[j], today).value];
    forall i | 0 <= i <= j ensures b[i] == c[i] {
      if i < j {
        assert colours[..j + 1][i] == colours[..j][i];
      } else {
        assert colours[..j + 1][j] == colours[j];
      }
    }
    assert |b| == |c|;
  }

  /** The inner loop of `fetchProductsFromPage` after storing one more colour. */
  lemma ColourStep(acc: Entries<string, Product>, done: seq<Product>, f: Fragment, j: nat, today: Date)
    requires Valid(today) && j < |f.colours| && FetchProduct(f, f.colours[j], today).Success?
    ensures Variants(f, f.colours[..j], today).Success? && Variants(f, f.colours[..j + 1], today).Success?
    ensures var p := FetchProduct(f, f.colours[j], today).value;
      Put(PutAll(acc, Keyed(done + Variants(f, f.colours[..j], today).value)), Key(p), p)
      == PutAll(acc, Keyed(done + Variants(f, f.colours[..j + 1], today).value))
  {
    var p := FetchProduct(f, f.colours[j], today).value;
    VariantsStep(f, f.colours, j, today);
    var vs := Variants(f, f.colours[..j], today).value;
    StoreOne(acc, done + vs, p);
    Reassociate(done, vs, [p]);
  }

  /** A product whose first fetch fails is the page's fault. */
  lemma ColourFault(frags: seq<Fragment>, i: nat, j: nat, today: Date)
    requires Valid(today) && i < |frags| && Harvest(frags[..i], today).Success?
    requires j < |frags[i].colours| && FetchProduct(frags[i], frags[i].colours[j], today).Failure?
    ensures Harvest(frags, today) == Failure(FetchProduct(frags[i], frags[i].colours[j], today).error)
  {
    PageFault(frags, i, today);
  }

  lemma HarvestStep(frags: seq<Fragment>, i: nat, today: Date)
    requires Valid(today) && i < |frags| && Harvest(frags[..i], today).Success?
    ensures Harvest(frags[..i + 1], today) ==
      match Variants(frags[i], frags[i].colours, today)
      case Failure(e) => Failure(e)
      case Success(qs) => Success(Harvest(frags[..i], today).value + qs)
  {
    assert frags[..i + 1][..i] == frags[..i];
  }

  /** A fault while storing the variants of product `i` is the page's fault. */
  lemma PageFault(frags: seq<Fragment>, i: nat, today: Date)
    requires Valid(today) && i < |frags| && Harvest(frags[..i], today).Success?
    requires Variants(frags[i], frags[i].colours, today).Failure?
    ensures Harvest(frags, today) == Failure(Variants(frags[i], frags[i].colours, today).error)
  {
    HarvestStep(frags, i, today);
    HarvestFaultInPrefix(frags, i + 1, today);
  }

  /** `fetchProductsFromPage`: every colour of every product on the page is
      fetched and stored under its key, overwriting an earlier record with
      the same key. An exception escapes with the fault of the first product
      that raises one. */
  method FetchProductsFromPage(acc: Entries<string, Product>, doc: Document, today: Date) returns (r: Result<Entries<string, Product>, Fault>)
    requires Valid(today)
    ensures r == Accumulated(acc, Harvest(doc.products, today))
  {
    var products := doc.products;
    var m := acc;
    var i := 0;
    while i < |products|
      invariant 0 <= i <= |products|
      invariant Harvest(products[..i], today).Success?
      invariant m == PutAll(acc, Keyed(Harvest(products[..i], today).value))
    {
      var f := products[i];
      var done := Harvest(products[..i], today).value;
      var j := 0;
      assert f.colours[..0] == [] && done + [] == done;
      while j < |f.colours|
        invariant 0 <= j <= |f.colours|
        invariant Variants(f, f.colours[..j], today).Success?
        invariant m == PutAll(acc, Keyed(done + Variants(f, f.colours[..j], today).value))
      {
        var item := FetchProduct(f, f.colours[j], today);
        if item.Failure? {
          ColourFault(products, i, j, today);
          return Failure(item.error);
        }
        ColourStep(acc, done, f, j, today);
        m := Put(m, Key(item.value), item.value);
        j := j + 1;
      }
      assert f.colours[..|f.colours|] == f.colours;
      HarvestStep(products, i, today);
      i := i + 1;
    }
    assert products[..i] == products;
    return Success(m);
  }

  /** `$this->baseUrl . '?page=' . $page`. */
  function PageUrl(id: string): (url: string)
    ensures |url| == |BaseUrl| + |PageQuery| + |id|
    ensures url[..|BaseUrl|] == BaseUrl && url[|BaseUrl|..|BaseUrl| + |PageQuery|] == PageQuery
  {
    BaseUrl + PageQuery + id
  }

  /** The page identifier a page URL was built from. */
  function PageId(url: string): string
    requires |url| >= |BaseUrl| + |PageQuery|
  {
    url[|BaseUrl| + |PageQuery|..]
  }

  /** The identifier is recovered from its URL, so distinct identifiers give
      distinct URLs, and no page URL is the root URL itself. */
  lemma PageUrlRoundTrip(id: string)
    ensures PageId(PageUrl(id)) == id
    ensures PageUrl(id) != BaseUrl
  {
    assert (BaseUrl + PageQuery + id)[|BaseUrl| + |PageQuery|..] == id;
  }

  lemma PageUrlInjective(a: string, b: string)
    ensures PageUrl(a) == PageUrl(b) <==> a == b
  {
    PageUrlRoundTrip(a);
    PageUrlRoundTrip(b);
  }

  /** The URL of every page link, in document order, duplicates kept. */
  function PageUrls(ids: seq<string>): (urls: seq<string>)
    ensures |urls| == |ids|
  {
    seq(|ids|, i requires 0 <= i < |ids| => PageUrl(ids[i]))
  }

  /** Each fetched URL names the link it came from, in the same position. */
  lemma PageUrlsRoundTrip(ids: seq<string>)
    ensures forall i :: 0 <= i < |ids| ==> PageId(PageUrls(ids)[i]) == ids[i]
  {
    forall i | 0 <= i < |ids| ensures PageId(PageUrls(ids)[i]) == ids[i] {
      PageUrlRoundTrip(ids[i]);
    }
  }

  /** The products of the pages at `urls`, page after page. */
  function PageProducts(fetch: string -> Document, urls: seq<string>): seq<Fragment>
    decreases |urls|
  {
    if |urls| == 0 then []
    else PageProducts(fetch, urls[..|urls| - 1]) + fetch(urls[|urls| - 1]).products
  }

  /** What a run writes out: the values of the accumulated map, or the fault
      that aborted it. The root listing supplies only page links. */
  function Scraped(fetch: string -> Document, today: Date): Result<seq<Product>, Fault>
    requires Valid(today)
  {
    if fetch(BaseUrl).pageLinks.None? then Failure(MissingPageList)
    else
      match Harvest(PageProducts(fetch, PageUrls(fetch(BaseUrl).pageLinks.value)), today)
      case Failure(e) => Failure(e)
      case Success(ps) => Success(Values(PutAll([], Keyed(ps))))
  }

  /** Harvesting products only ever raises a product's own fault. */
  lemma {:induction false} HarvestFaultIsProducts(frags: seq<Fragment>, today: Date)
    requires Valid(today)
    ensures Harvest(frags, today).Failure? ==> Harvest(frags, today).error != MissingPageList
    decreases |frags|
  {
    if |frags| > 0 {
      HarvestFaultIsProducts(frags[..|frags| - 1], today);
    }
  }

  /** A run fails for want of a page list exactly when the root listing has
      no `#pages div`; every other fault comes from a product. */
  lemma RunNeedsPageList(fetch: string -> Document, today: Date)
    requires Valid(today)
    ensures Scraped(fetch, today) == Failure(MissingPageList) <==> fetch(BaseUrl).pageLinks.None?
  {
    if fetch(BaseUrl).pageLinks.Some? {
      HarvestFaultIsProducts(PageProducts(fetch, PageUrls(fetch(BaseUrl).pageLinks.value)), today);
    }
  }

  lemma PageStep(fetch: string -> Document, urls: seq<string>, k: nat)
    requires k < |urls|
    ensures PageProducts(fetch, urls[..k + 1]) == PageProducts(fetch, urls[..k]) + fetch(urls[k]).products
  {
    assert urls[..k + 1][..k] == urls[..k];
  }

  /** A fault on one page is the fault of the run. */
  lemma {:induction false} RunFault(fetch: string -> Document, urls: seq<string>, n: nat, today: Date)
    requires Valid(today) && n <= |urls| && Harvest(PageProducts(fetch, urls[..n]), today).Failure?
    ensures Harvest(PageProducts(fetch, urls), today) == Harvest(PageProducts(fetch, urls[..n]), today)
    decreases |urls| - n
  {
    if n < |urls| {
      var init := urls[..|urls| - 1];
      assert init[..n] == urls[..n];
      RunFault(fetch, init, n, today);
      HarvestAppend(PageProducts(fetch, init), fetch(urls[|urls| - 1]).products, today);
    } else {
      assert urls[..n] == urls;
    }
  }

  /** The pages' records after page `k` has been stored. */
  lemma StorePage(fetch: string -> Document, urls: seq<string>, k: nat, page: Result<Entries<string, Product>, Fault>, today: Date)
    requires Valid(today) && k < |urls|
    requires Harvest(PageProducts(fetch, urls[..k]), today).Success?
    requires page == Accumulated(PutAll([], Keyed(Harvest(PageProducts(fetch, urls[..k]), today).value)), Harvest(fetch(urls[k]).products, today))
    ensures page.Failure? ==> Harvest(PageProducts(fetch, urls), today) == Failure(page.error)
    ensures page.Success? ==>
      (Harvest(PageProducts(fetch, urls[..k + 1]), today).Success?
        && page.value == PutAll([], Keyed(Harvest(PageProducts(fetch, urls[..k + 1]), today).value)))
  {
    var before := PageProducts(fetch, urls[..k]);
    var here := fetch(urls[k]).products;
    PageStep(fetch, urls, k);
    HarvestAppend(before, here, today);
    if page.Failure? {
      RunFault(fetch, urls, k + 1, today);
    } else {
      StoreBoth([], Harvest(before, today).value, Harvest(here, today).value);
    }
  }

  /** `run`: fetch the root listing, then each page it links to, storing the
      records of every page; the output is the map's values in key order. */
  method Run(fetch: string -> Document, today: Date) returns (r: Result<seq<Product>, Fault>)
    requires Valid(today)
    ensures r == Scraped(fetch, today)
  {
    var root := fetch(BaseUrl);
    if root.pageLinks.None? {
      return Failure(MissingPageList);
    }
    var pages := root.pageLinks.value;
    ghost var urls := PageUrls(pages);
    var m: Entries<string, Product> := [];
    var k := 0;
    while k < |pages|
      invariant 0 <= k <= |pages|
      invariant Harvest(PageProducts(fetch, urls[..k]), today).Success?
      invariant m == PutAll([], Keyed(Harvest(PageProducts(fetch, urls[..k]), today).value))
    {
      var document := fetch(BaseUrl + PageQuery + pages[k]);
      assert urls[k] == BaseUrl + PageQuery + pages[k];
      var page := FetchProductsFromPage(m, document, today);
      StorePage(fetch, urls, k, page, today);
      if page.Failure? {
        return Failure(page.error);
      }
      m := page.value;
      k := k + 1;
    }
    assert urls[..k] == urls;
    return Success(Values(m));
  }

  /** Every entry is stored under the key of its own record. */
  ghost predicate Coherent(m: Entries<string, Product>)
  {
    forall i :: 0 <= i < |m| ==> m[i].0 == Key(m[i].1)
  }

  lemma CoherentCons(e: (string, Product), m: Entries<string, Product>)
    ensures Coherent([e] + m) <==> e.0 == Key(e.1) && Coherent(m)
  {
    assert ([e] + m)[0] == e;
    assert forall i :: 0 <= i < |m| ==> ([e] + m)[i + 1] == m[i];
  }

  lemma {:induction false} PutCoherent(m: Entries<string, Product>, p: Product)
    requires Coherent(m)
    ensures Coherent(Put(m, Key(p), p))
    decreases |m|
  {
    if |m| > 0 {
      ConsTail(m);
      CoherentCons(m[0], m[1..]);
      if m[0].0 == Key(p) {
        ReplaceFront(m, p);
        assert m[..0] + [(Key(p), p)] + m[1..] == [(Key(p), p)] + m[1..];
        CoherentCons((Key(p), p), m[1..]);
      } else {
        PutPast(m, Key(p), p);
        PutCoherent(m[1..], p);
        CoherentCons(m[0], Put(m[1..], Key(p), p));
      }
    }
  }

  lemma {:induction false} PutAllCoherent(m: Entries<string, Product>, ps: seq<Product>)
    requires Coherent(m)
    ensures Coherent(PutAll(m, Keyed(ps)))
    decreases |ps|
  {
    if |ps| > 0 {
      PutCoherent(m, ps[0]);
      assert Keyed(ps)[1..] == Keyed(ps[1..]);
      PutAllCoherent(Put(m, Key(ps[0]), ps[0]), ps[1..]);
    }
  }

  /** The output of a run that does not abort: one record per distinct key,
      keys in the order they were first met, and each record the last one
      met under its key. */
  lemma ScrapedOutput(fetch: string -> Document, today: Date)
    requires Valid(today) && Scraped(fetch, today).Success?
    ensures fetch(BaseUrl).pageLinks.Some?
    ensures var h := Harvest(PageProducts(fetch, PageUrls(fetch(BaseUrl).pageLinks.value)), today);
      var out, order := Scraped(fetch, today).value, FirstSeen(Keys(Keyed(h.value)));
      && h.Success?
      && |out| == |order|
      && (forall i :: 0 <= i < |out| ==> Key(out[i]) == order[i] && LastValue(Keyed(h.value), order[i]) == Some(out[i]))
      && (forall i, j :: 0 <= i < j < |out| ==> Key(out[i]) != Key(out[j]))
  {
    var h := Harvest(PageProducts(fetch, PageUrls(fetch(BaseUrl).pageLinks.value)), today);
    DeduplicatedOutput(h.value);
  }

  /** Storing harvested products and reading the values back yields one
      record per distinct key, in first-seen order, each the last stored. */
  lemma DeduplicatedOutput(ps: seq<Product>)
    ensures var out, order := Values(PutAll([], Keyed(ps))), FirstSeen(Keys(Keyed(ps)));
      && |out| == |order|
      && (forall i :: 0 <= i < |out| ==> Key(out[i]) == order[i] && LastValue(Keyed(ps), order[i]) == Some(out[i]))
      && (forall i, j :: 0 <= i < j < |out| ==> Key(out[i]) != Key(out[j]))
  {
    Accumulate(Keyed(ps));
    PutAllCoherent([], ps);
    CoherentValues(PutAll([], Keyed(ps)));
  }

  /** In a coherent map each value carries its own key, so distinct keys
      mean values with distinct keys. */
  lemma CoherentValues(m: Entries<string, Product>)
    requires Coherent(m)
    ensures forall i :: 0 <= i < |m| ==> Key(Values(m)[i]) == Keys(m)[i]
    ensures Distinct(Keys(m)) ==> forall i, j :: 0 <= i < j < |m| ==> Key(Values(m)[i]) != Key(Values(m)[j])
  {
  }

  lemma {:induction false} PageProductsAgree(fetch: string -> Document, fetch2: string -> Document, urls: seq<string>)
    requires forall i :: 0 <= i < |urls| ==> fetch(urls[i]) == fetch2(urls[i])
    ensures PageProducts(fetch, urls) == PageProducts(fetch2, urls)
    decreases |urls|
  {
    if |urls| > 0 {
      PageProductsAgree(fetch, fetch2, urls[..|urls| - 1]);
    }
  }

  /** The products listed on the root document itself are never harvested:
      two fetchers that differ only in those give the same run. */
  lemma RunIgnoresRootProducts(fetch: string -> Document, fetch2: string -> Document, today: Date)
    requires Valid(today)
    requires fetch2(BaseUrl).pageLinks == fetch(BaseUrl).pageLinks
    requires forall url :: url != BaseUrl ==> fetch2(url) == fetch(url)
    ensures Scraped(fetch2, today) == Scraped(fetch, today)
  {
    if fetch(BaseUrl).pageLinks.Some? {
      var urls := PageUrls(fetch(BaseUrl).pageLinks.value);
      forall i | 0 <= i < |urls| ensures fetch(urls[i]) == fetch2(urls[i]) {
        PageUrlRoundTrip(fetch(BaseUrl).pageLinks.value[i]);
      }
      PageProductsAgree(fetch, fetch2, urls);
    }
  }

  /** Keys join title and colour with a space, so two different products whose
      joined strings coincide share one entry, and the later record wins. */
  lemma JoinedKeysCollide(p: Product, q: Product, t: string, u: string, c: string)
    requires p.title == Some(t + " " + u) && p.colour == Some(c)
    requires q.title == Some(t) && q.colour == Some(u + " " + c)
    ensures p.title != q.title && Key(p) == Key(q)
    ensures PutAll([], Keyed([p, q])) == [(Key(q), q)]
  {
    var k := Key(p);
    assert k == t + " " + u + " " + c == Key(q);
    assert Keyed([p, q]) == [(k, p)] + [(k, q)];
    PutAllCons([], (k, p), [(k, q)]);
    WriteOne((k, p));
    PutAllCons([(k, p)], (k, q), []);
    ReplaceFront([(k, p)], q);
    assert [(k, p)][..0] + [(k, q)] + [(k, p)][1..] == [(k, q)];
  }
}

=== FILE: shippingdate.dfy ===
/** Extraction of a delivery date from a free-text shipping message. The
    message is searched with the case-insensitive pattern
      \b(?:\d{4}-\d{2}-\d{2}|\d{1,2}(?:th|st|nd|rd)? (?:Jan|...|Dec) \d{4}|tomorrow)\b
    and the leftmost match is turned into a `Y-m-d` date. The pattern is
    stated declaratively (`MatchSpan`) and a deterministic matcher is proved
    to find exactly its matches. */
module ShippingDate {
  import opened Wrappers
  import opened Digits
  import opened Calendar

  /** `\w` outside Unicode mode. */
  predicate IsWordChar(c: char)
  {
    IsDigit(c) || 'a' <= c <= 'z' || 'A' <= c <= 'Z' || c == '_'
  }

  /** `\b` at index `i`: a word character on exactly one side. */
  predicate Boundary(s: string, i: int)
    requires 0 <= i <= |s|
  {
    (0 < i && IsWordChar(s[i - 1])) != (i < |s| && IsWordChar(s[i]))
  }

  /** ASCII case folding, as the `/i` flag applies it. */
  function Lower(c: char): char
  {
    if 'A' <= c <= 'Z' then (c as int + 32) as char else c
  }

  function LowerAll(w: string): (r: string)
    ensures |r| == |w| && forall k :: 0 <= k < |w| ==> r[k] == Lower(w[k])
  {
    seq(|w|, k requires 0 <= k < |w| => Lower(w[k]))
  }

  const Months: seq<string> :=
    ["jan", "feb", "mar", "apr", "may", "jun", "jul", "aug", "sep", "oct", "nov", "dec"]

  const Suffixes: set<string> := {"th", "st", "nd", "rd"}

  /** `\d{4}-\d{2}-\d{2}` */
  predicate IsoShape(w: string)
  {
    |w| == 10 && AllDigits(w[..4]) && w[4] == '-' && AllDigits(w[5..7]) && w[7] == '-' && AllDigits(w[8..])
  }

  /** `\d{1,2}(?:th|st|nd|rd)? (?:Jan|...|Dec) \d{4}` with `digits` day digits
      and the ordinal suffix present or not. */
  predicate DmyShapeWith(w: string, digits: nat, suffix: bool)
  {
    var p := digits + (if suffix then 2 else 0);
    && 1 <= digits <= 2
    && |w| == p + 9
    && AllDigits(w[..digits])
    && (suffix ==> LowerAll(w[digits..p]) in Suffixes)
    && w[p] == ' '
    && LowerAll(w[p + 1..p + 4]) in Months
    && w[p + 4] == ' '
    && AllDigits(w[p + 5..])
  }

  predicate DmyShape(w: string)
  {
    DmyShapeWith(w, 1, false) || DmyShapeWith(w, 1, true) || DmyShapeWith(w, 2, false) || DmyShapeWith(w, 2, true)
  }

  predicate TomorrowShape(w: string)
  {
    LowerAll(w) == "tomorrow"
  }

  /** The text of one of the three alternatives. */
  predicate Shape(w: string)
  {
    IsoShape(w) || DmyShape(w) || TomorrowShape(w)
  }

  /** The pattern matches `s[i..j]`, word boundaries included. */
  predicate MatchSpan(s: string, i: int, j: int)
  {
    0 <= i <= j <= |s| && Boundary(s, i) && Boundary(s, j) && Shape(s[i..j])
  }

  predicate DigitAt(s: string, i: int)
  {
    0 <= i < |s| && IsDigit(s[i])
  }

  /** The only place a match starting at `i` could end, read off its first
      characters: three digits can only start an ISO date, one or two digits
      a day-month-year date (with a suffix unless a space follows the digits),
      anything else only "tomorrow". */
  function Candidate(s: string, i: nat): nat
  {
    if DigitAt(s, i) && DigitAt(s, i + 1) && DigitAt(s, i + 2) then i + 10
    else if DigitAt(s, i) then
      var d := if DigitAt(s, i + 1) then 2 else 1;
      var suffix := i + d < |s| && s[i + d] != ' ';
      i + d + (if suffix then 2 else 0) + 9
    else i + 8
  }

  lemma LowerFacts(c: char)
    ensures IsDigit(Lower(c)) <==> IsDigit(c)
    ensures Lower(c) == ' ' <==> c == ' '
  {
  }

  /** A suffix starts with a letter, never a digit or a space. */
  lemma SuffixStart(w: string)
    requires |w| == 2 && LowerAll(w) in Suffixes
    ensures !IsDigit(w[0]) && w[0] != ' '
  {
    LowerFacts(w[0]);
    assert LowerAll(w)[0] == Lower(w[0]);
  }

  /** Every match starting at `i` ends at `Candidate(s, i)`. */
  lemma MatchEndsAtCandidate(s: string, i: nat, j: nat)
    requires MatchSpan(s, i, j)
    ensures j == Candidate(s, i)
  {
    var w := s[i..j];
    if IsoShape(w) {
      assert w[..4][0] == w[0] && w[..4][1] == w[1] && w[..4][2] == w[2];
    } else if TomorrowShape(w) {
      assert LowerAll(w)[0] == 't';
      LowerFacts(w[0]);
    } else if DmyShapeWith(w, 1, false) || DmyShapeWith(w, 2, false) {
      assert w[..1][0] == w[0];
      assert w[..2][1] == w[1];
    } else if DmyShapeWith(w, 1, true) {
      assert w[..1][0] == w[0];
      SuffixStart(w[1..3]);
    } else {
      assert DmyShapeWith(w, 2, true);
      assert w[..2][0] == w[0] && w[..2][1] == w[1];
      SuffixStart(w[2..4]);
    }
  }

  /** The end of the match of the pattern starting exactly at `i`, if any. */
  function MatchEnd(s: string, i: nat): (r: Option<nat>)
    requires i <= |s|
    ensures forall j :: MatchSpan(s, i, j) <==> r == Some(j)
  {
    var j := Candidate(s, i);
    if j <= |s| && MatchSpan(s, i, j) then
      assert forall j' :: MatchSpan(s, i, j') ==> j' == j by {
        forall j' | MatchSpan(s, i, j') ensures j' == j {
          MatchEndsAtCandidate(s, i, j');
        }
      }
      Some(j)
    else
      assert forall j' :: !MatchSpan(s, i, j') by {
        forall j' | MatchSpan(s, i, j') ensures false {
          MatchEndsAtCandidate(s, i, j');
        }
      }
      None
  }

  /** What `preg_match` reports: the span of the leftmost match at or after
      `from`, scanning start positions left to right. */
  function FirstMatch(s: string, from: nat): (r: Option<(nat, nat)>)
    requires from <= |s|
    ensures r.Some? ==> from <= r.value.0 && MatchSpan(s, r.value.0, r.value.1)
    decreases |s| - from
  {
    match MatchEnd(s, from)
    case Some(j) => Some((from, j))
    case None => if from == |s| then None else FirstMatch(s, from + 1)
  }

  /** The scan finds a match exactly when there is one, and the match it
      finds has none starting before it. */
  lemma {:induction false} FirstMatchSpec(s: string, from: nat)
    requires from <= |s|
    ensures var r := FirstMatch(s, from);
      && (r.Some? ==> forall p, j :: from <= p < r.value.0 ==> !MatchSpan(s, p, j))
      && (r.None? ==> forall p, j :: from <= p ==> !MatchSpan(s, p, j))
    decreases |s| - from
  {
    if MatchEnd(s, from).None? && from < |s| {
      FirstMatchSpec(s, from + 1);
    }
  }

  /** `FirstMatch` reports the leftmost match and nothing else: a match at
      `k` with none before it is what it returns. */
  lemma LeftmostMatch(s: string, from: nat, k: nat, j: nat)
    requires from <= k && MatchSpan(s, k, j)
    requires forall p, j' :: from <= p < k ==> !MatchSpan(s, p, j')
    ensures FirstMatch(s, from) == Some((k, j))
  {
    FirstMatchSpec(s, from);
    var r := FirstMatch(s, from);
    assert r.Some?;
    var e := MatchEnd(s, k);
    assert r.value.0 == k;
  }

  /** 1-based position of a lower-case month abbreviation. */
  function MonthNumber(name: string): (m: nat)
    requires name in Months
    ensures 1 <= m <= 12 && Months[m - 1] == name
  {
    MonthIndexFrom(name, 0) + 1
  }

  function MonthIndexFrom(name: string, k: nat): (i: nat)
    requires k <= |Months| && name in Months[k..]
    ensures k <= i < |Months| && Months[i] == name
    decreases |Months| - k
  {
    if Months[k] == name then k else MonthIndexFrom(name, k + 1)
  }

  function ValidOrNone(d: Date): (r: Option<Date>)
    ensures r.Some? <==> Valid(d)
    ensures r.Some? ==> r.value == d
  {
    if Valid(d) then Some(d) else None
  }

  /** The date a matched text stands for: `strtotime` on a well-formed calendar
      date, or the day after `today` for "tomorrow". The pattern accepts an
      ordinal suffix in any letter case, but `strtotime` reads only a lower-case
      one and fails on the rest; a failure is no date here. */
  function Interpret(w: string, today: Date): (r: Option<Date>)
    requires Shape(w) && Valid(today)
    ensures r.Some? ==> Valid(r.value)
  {
    if IsoShape(w) then
      ValidOrNone(Date(Value(w[..4]), Value(w[5..7]), Value(w[8..])))
    else if TomorrowShape(w) then
      Some(NextDay(today))
    else
      var digits := if IsDigit(w[1]) then 2 else 1;
      var p := if w[digits] == ' ' then digits else digits + 2;
      if DmyShapeWith(w, digits, p != digits) then
        if p != digits && w[digits..p] !in Suffixes then None
        else ValidOrNone(Date(Value(w[p + 5..]), MonthNumber(LowerAll(w[p + 1..p + 4])), Value(w[..digits])))
      else
        None
  }

  /** `extractDateFromMessage`: the leftmost date-like text of the message as
      `Y-m-d`, or nothing when the message holds none. */
  function ExtractDate(message: string, today: Date): Option<string>
    requires Valid(today)
  {
    match FirstMatch(message, 0)
    case None => None
    case Some((i, j)) =>
      match Interpret(message[i..j], today)
      case None => None
      case Some(d) => Some(Format(d))
  }

  /** A message with no match has no shipping date, and a shipping date is
      always the rendering of a real calendar day. */
  lemma ExtractDateSound(message: string, today: Date)
    requires Valid(today)
    ensures (forall p, j :: !MatchSpan(message, p, j)) ==> ExtractDate(message, today).None?
    ensures ExtractDate(message, today).Some? ==> exists d :: Valid(d) && ExtractDate(message, today).value == Format(d)
  {
    FirstMatchSpec(message, 0);
    match FirstMatch(message, 0)
    case None =>
    case Some((i, j)) =>
      match Interpret(message[i..j], today)
      case None =>
      case Some(d) => assert Valid(d);
  }

  /** Text in which no match can start: no digit and no `t` or `T`. */
  predicate NoDateStart(w: string)
  {
    |w| == 0 || (!IsDigit(w[0]) && Lower(w[0]) != 't' && NoDateStart(w[1..]))
  }

  lemma {:induction false} NoDateStartAt(w: string, k: nat)
    requires NoDateStart(w) && k < |w|
    ensures !IsDigit(w[k]) && Lower(w[k]) != 't'
  {
    if k > 0 {
      NoDateStartAt(w[1..], k - 1);
    }
  }

  /** Every alternative starts with a digit or a `t` and ends with a digit or a `w`. */
  lemma ShapeEnds(w: string)
    requires Shape(w)
    ensures |w| > 0 && (IsDigit(w[0]) || Lower(w[0]) == 't')
    ensures IsWordChar(w[0]) && IsWordChar(w[|w| - 1])
  {
    if IsoShape(w) {
      assert w[..4][0] == w[0] && w[8..][1] == w[9];
    } else if TomorrowShape(w) {
      assert LowerAll(w)[0] == 't' && LowerAll(w)[7] == 'w';
    } else {
      var digits := if DmyShapeWith(w, 1, false) || DmyShapeWith(w, 1, true) then 1 else 2;
      assert w[..digits][0] == w[0];
      var p := |w| - 9;
      assert w[p + 5..][3] == w[|w| - 1];
    }
  }

  /** No match starts inside the first `n` characters when they hold no
      digit and no `t`. */
  lemma NoMatchInPrefix(s: string, n: nat)
    requires n <= |s| && NoDateStart(s[..n])
    ensures forall p, j :: 0 <= p < n ==> !MatchSpan(s, p, j)
  {
    forall p, j | 0 <= p < n && MatchSpan(s, p, j) ensures false {
      NoDateStartAt(s[..n], p);
      assert s[p] == s[..n][p];
      ShapeEnds(s[p..j]);
    }
  }

  /** Position `p` cannot start a match: it holds neither a digit nor a `t`,
      or it continues a word, so `\b` fails there. */
  predicate CannotStart(s: string, p: nat)
    requires p < |s|
  {
    (!IsDigit(s[p]) && Lower(s[p]) != 't') || (p > 0 && IsWordChar(s[p - 1]))
  }

  /** No match starts inside the first `n` characters when none of them can
      start one: "Get it by " holds `t`s, but each inside a word. */
  lemma NoMatchBefore(s: string, n: nat)
    requires n <= |s| && forall p :: 0 <= p < n ==> CannotStart(s, p)
    ensures forall p, j :: 0 <= p < n ==> !MatchSpan(s, p, j)
  {
    forall p, j | 0 <= p < n && MatchSpan(s, p, j) ensures false {
      assert CannotStart(s, p);
      ShapeEnds(s[p..j]);
    }
  }

  /** A whole alternative standing between non-word characters is a match. */
  lemma MatchBetween(prefix: string, w: string, rest: string)
    requires |prefix| == 0 || !IsWordChar(prefix[|prefix| - 1])
    requires Shape(w)
    requires |rest| == 0 || !IsWordChar(rest[0])
    ensures MatchSpan(prefix + w + rest, |prefix|, |prefix| + |w|)
  {
    var s := prefix + w + rest;
    var k := |prefix|;
    ShapeEnds(w);
    assert s[k..k + |w|] == w;
    assert s[k] == w[0] && s[k + |w| - 1] == w[|w| - 1];
  }

  /** The first date-like word of a message decides its shipping date, when
      no match starts before it. */
  lemma ExtractFirstDate(prefix: string, w: string, rest: string, today: Date)
    requires Valid(today)
    requires forall p, j :: 0 <= p < |prefix| ==> !MatchSpan(prefix + w + rest, p, j)
    requires |prefix| == 0 || !IsWordChar(prefix[|prefix| - 1])
    requires Shape(w)
    requires |rest| == 0 || !IsWordChar(rest[0])
    ensures ExtractDate(prefix + w + rest, today) == if Interpret(w, today).Some? then Some(Format(Interpret(w, today).value)) else None
  {
    MatchBetween(prefix, w, rest);
    LeftmostMatch(prefix + w + rest, 0, |prefix|, |prefix| + |w|);
    ExtractAtWord(prefix, w, rest, today);
  }

  lemma ExtractAtWord(prefix: string, w: string, rest: string, today: Date)
    requires Valid(today) && Shape(w)
    requires FirstMatch(prefix + w + rest, 0) == Some((|prefix|, |prefix| + |w|))
    ensures ExtractDate(prefix + w + rest, today) == if Interpret(w, today).Some? then Some(Format(Interpret(w, today).value)) else None
  {
    MiddleSlice(prefix, w, rest);
    ExtractAtMatch(prefix + w + rest, |prefix|, |prefix| + |w|, today);
  }

  lemma MiddleSlice(prefix: string, w: string, rest: string)
    ensures (prefix + w + rest)[|prefix|..|prefix| + |w|] == w
  {
  }

  /** The shipping date of a message whose first date-like word stands for `d`. */
  lemma DateFound(message: string, prefix: string, w: string, rest: string, today: Date, d: Date)
    requires message == prefix + w + rest && Valid(today)
    requires forall p, j :: 0 <= p < |prefix| ==> !MatchSpan(message, p, j)
    requires |prefix| == 0 || !IsWordChar(prefix[|prefix| - 1])
    requires Shape(w) && Interpret(w, today) == Some(d)
    requires |rest| == 0 || !IsWordChar(rest[0])
    ensures ExtractDate(message, today) == Some(Format(d))
  {
    ExtractFirstDate(prefix, w, rest, today);
  }

  /** The date comes from the text of the leftmost match. */
  lemma ExtractAtMatch(s: string, i: nat, j: nat, today: Date)
    requires Valid(today)
    requires FirstMatch(s, 0) == Some((i, j))
    ensures var d := Interpret(s[i..j], today);
      ExtractDate(s, today) == if d.Some? then Some(Format(d.value)) else None
  {
  }

  /** A day-month-year text matches, with or without an ordinal suffix and in
      any letter case; it stands for that day when the day exists and the
      suffix, if any, is in lower case. */
  lemma DayMonthYearReading(day: string, suffix: string, month: string, year: string, today: Date)
    requires 1 <= |day| <= 2 && AllDigits(day)
    requires |suffix| == 0 || (|suffix| == 2 && LowerAll(suffix) in Suffixes)
    requires |month| == 3 && LowerAll(month) in Months
    requires |year| == 4 && AllDigits(year)
    requires Valid(today)
    ensures var w := day + suffix + " " + month + " " + year;
      && Shape(w)
      && (|suffix| == 0 || suffix in Suffixes ==>
            Interpret(w, today) == ValidOrNone(Date(Value(year), MonthNumber(LowerAll(month)), Value(day))))
      && (|suffix| == 2 && suffix !in Suffixes ==> Interpret(w, today) == None)
  {
    DmyLayout(day, suffix, month, year);
    var w := day + suffix + " " + month + " " + year;
    var digits := if IsDigit(w[1]) then 2 else 1;
    var p := if w[digits] == ' ' then digits else digits + 2;
    assert digits == |day| && p == |day| + |suffix|;
    assert DmyShapeWith(w, digits, p != digits);
  }

  /** Where the fields of a day-month-year text sit, and which branch of
      `Interpret` reads it. */
  lemma DmyLayout(day: string, suffix: string, month: string, year: string)
    requires 1 <= |day| <= 2 && AllDigits(day)
    requires |suffix| == 0 || (|suffix| == 2 && LowerAll(suffix) in Suffixes)
    requires |month| == 3 && LowerAll(month) in Months
    requires |year| == 4 && AllDigits(year)
    ensures var w, p := day + suffix + " " + month + " " + year, |day| + |suffix|;
      && w[..|day|] == day && w[|day|..p] == suffix && w[p + 1..p + 4] == month && w[p + 5..] == year
      && DmyShapeWith(w, |day|, |suffix| == 2)
      && (IsDigit(w[1]) <==> |day| == 2)
      && (w[|day|] == ' ' <==> |suffix| == 0)
      && Shape(w) && !IsoShape(w) && !TomorrowShape(w)
  {
    var w := day + suffix + " " + month + " " + year;
    var p := |day| + |suffix|;
    assert w[..|day|] == day;
    assert w[|day|..p] == suffix;
    assert w[p + 1..p + 4] == month;
    assert w[p + 5..] == year;
    assert DmyShapeWith(w, |day|, |suffix| == 2);
    if |suffix| == 2 {
      SuffixStart(suffix);
      assert w[|day|] == suffix[0];
    }
    if |day| == 2 {
      assert w[1] == day[1];
    } else {
      assert w[1] == (suffix + " ")[0];
      if |suffix| == 2 {
        SuffixStart(suffix);
      }
    }
  }

  /** A day, an optional lower-case ordinal suffix, a month abbreviation in
      any letter case and a year stand for that day when it exists. */
  lemma InterpretDayMonthYear(day: string, suffix: string, month: string, year: string, today: Date)
    requires 1 <= |day| <= 2 && AllDigits(day)
    requires |suffix| == 0 || suffix in Suffixes
    requires |month| == 3 && LowerAll(month) in Months
    requires |year| == 4 && AllDigits(year)
    requires Valid(today)
    ensures var w := day + suffix + " " + month + " " + year;
      && Shape(w)
      && Interpret(w, today) == ValidOrNone(Date(Value(year), MonthNumber(LowerAll(month)), Value(day)))
  {
    if |suffix| > 0 {
      LowerSuffix(suffix);
    }
    DayMonthYearReading(day, suffix, month, year, today);
  }

  lemma LowerSuffix(suffix: string)
    requires suffix in Suffixes
    ensures |suffix| == 2 && LowerAll(suffix) == suffix
  {
  }

  /** A suffix with an upper-case letter ("3RD Jan 2025") matches the pattern
      but `strtotime` cannot read it, so there is no date. */
  lemma UpperSuffixNoDate(day: string, suffix: string, month: string, year: string, today: Date)
    requires 1 <= |day| <= 2 && AllDigits(day)
    requires |suffix| == 2 && LowerAll(suffix) in Suffixes && suffix !in Suffixes
    requires |month| == 3 && LowerAll(month) in Months
    requires |year| == 4 && AllDigits(year)
    requires Valid(today)
    ensures var w := day + suffix + " " + month + " " + year;
      Shape(w) && Interpret(w, today) == None
  {
    DayMonthYearReading(day, suffix, month, year, today);
  }

  /** "tomorrow" in any letter case stands for the day after `today`. */
  lemma InterpretTomorrow(w: string, today: Date)
    requires LowerAll(w) == "tomorrow" && Valid(today)
    ensures Shape(w) && Interpret(w, today) == Some(NextDay(today))
  {
    assert |w| == 8;
  }

  /** A message without digits and without a `t` holds no shipping date. */
  lemma NoDateInQuietText(message: string, today: Date)
    requires NoDateStart(message) && Valid(today)
    ensures ExtractDate(message, today) == None
  {
    assert message[..|message|] == message;
    NoMatchInPrefix(message, |message|);
    forall j | MatchSpan(message, |message|, j) ensures false {
      ShapeEnds(message[|message|..j]);
    }
    ExtractDateSound(message, today);
  }

  /** Inside a run of word characters `\b` holds only at its two ends, so
      a match in it must span the whole run. */
  lemma WordRunMatch(s: string, i: int, j: int)
    requires forall k :: 0 <= k < |s| ==> IsWordChar(s[k])
    requires MatchSpan(s, i, j)
    ensures i == 0 && j == |s| && LowerAll(s) == "tomorrow"
  {
    ShapeEnds(s[i..j]);
    assert i == 0 && j == |s|;
    assert s[i..j] == s;
  }

  /** A run of word characters holds no date unless it spells "tomorrow":
      "tomorrows" holds none. */
  lemma WordRunHasNoDate(s: string, today: Date)
    requires forall k :: 0 <= k < |s| ==> IsWordChar(s[k])
    requires LowerAll(s) != "tomorrow" && Valid(today)
    ensures ExtractDate(s, today) == None
  {
    forall i, j | MatchSpan(s, i, j) ensures false {
      WordRunMatch(s, i, j);
    }
    ExtractDateSound(s, today);
  }

  /** Reading back a rendered date gives that date: `Format` followed by
      extraction is the identity on four-digit years. */
  lemma IsoRoundTrip(d: Date, today: Date)
    requires Valid(d) && d.year < 10000 && Valid(today)
    ensures ExtractDate(Format(d), today) == Some(Format(d))
  {
    var s := Format(d);
    assert IsoShape(s);
    assert Interpret(s, today) == Some(d);
    ExtractFirstDate("", s, "", today);
    assert "" + s + "" == s;
  }
}

=== FILE: shippingexamples.dfy ===
/** Worked shipping messages: each states what `extractDateFromMessage`
    returns for a concrete message, through the general lemmas. The small
    lemmas split a literal message into the parts those lemmas expect. */
module ShippingExamples {
  import opened Wrappers
  import opened Digits
  import opened Calendar
  import opened ShippingDate

  /** The third of January 2025, rendered. */
  lemma ThirdOfJanuary(d: Date)
    requires d == Date(2025, 1, 3)
    ensures Valid(d) && Format(d) == "2025-01-03"
  {
    ValueOfFour("2025");
    ValueOfTwo("01");
    ValueOfTwo("03");
    FormatOfDigits("2025", "01", "03");
  }

  lemma JanuaryFields()
    ensures MonthNumber("jan") == 1 && Value("2025") == 2025 && Value("3") == 3
  {
    ValueOfFour("2025");
  }

  lemma OrdinalParts(w: string)
    requires w == "3rd Jan 2025"
    ensures w == w[..1] + w[1..3] + " " + w[4..7] + " " + w[8..]
    ensures w[..1] == "3" && w[8..] == "2025" && w[1..3] == "rd" && w[4..7] == "Jan"
    ensures w[1..3] in Suffixes && LowerAll(w[4..7]) == "jan"
  {
    assert LowerAll("Jan") == "jan";
  }

  /** "3rd Jan 2025": an ordinal suffix and a capitalised month. */
  lemma OrdinalText(w: string, today: Date)
    requires w == "3rd Jan 2025" && Valid(today)
    ensures Shape(w) && Interpret(w, today) == Some(Date(2025, 1, 3))
  {
    OrdinalParts(w);
    JanuaryFields();
    ThirdOfJanuary(Date(2025, 1, 3));
    InterpretDayMonthYear(w[..1], w[1..3], w[4..7], w[8..], today);
  }

  lemma ShoutedParts(w: string)
    requires w == "3RD Jan 2025"
    ensures w == w[..1] + w[1..3] + " " + w[4..7] + " " + w[8..]
    ensures w[..1] == "3" && w[8..] == "2025" && w[4..7] == "Jan"
    ensures |w[1..3]| == 2 && LowerAll(w[1..3]) in Suffixes && w[1..3] !in Suffixes
    ensures LowerAll(w[4..7]) == "jan"
  {
    assert w[1..3] == "RD";
    assert LowerAll("RD") == "rd";
    assert LowerAll("Jan") == "jan";
  }

  /** "3RD Jan 2025": the pattern matches, but `strtotime` reads only a lower-case suffix. */
  lemma ShoutedOrdinalText(w: string, today: Date)
    requires w == "3RD Jan 2025" && Valid(today)
    ensures Shape(w) && Interpret(w, today) == None
  {
    ShoutedParts(w);
    JanuaryFields();
    UpperSuffixNoDate(w[..1], w[1..3], w[4..7], w[8..], today);
  }

  lemma ArrivesSplit(message: string, w: string)
    requires message == "Arrives " + w
    ensures message[..8] == "Arrives " && message[8..] == w
    ensures message == message[..8] + message[8..] + ""
    ensures forall p, j :: 0 <= p < 8 ==> !MatchSpan(message, p, j)
  {
    assert NoDateStart("Arrives ");
    assert message[..8] == "Arrives ";
    NoMatchInPrefix(message, 8);
  }

  lemma OrdinalDate(message: string, today: Date)
    requires message == "Arrives 3rd Jan 2025" && Valid(today)
    ensures ExtractDate(message, today) == Some("2025-01-03")
  {
    ArrivesSplit(message, "3rd Jan 2025");
    OrdinalText(message[8..], today);
    ThirdOfJanuary(Date(2025, 1, 3));
    DateFound(message, message[..8], message[8..], "", today, Date(2025, 1, 3));
  }

  /** "3 jan 2025": no suffix and a lower-case month still match. */
  lemma PlainParts(w: string)
    requires w == "3 jan 2025"
    ensures w == w[..1] + "" + " " + w[2..5] + " " + w[6..]
    ensures w[..1] == "3" && w[6..] == "2025" && w[2..5] == "jan"
    ensures LowerAll(w[2..5]) == "jan"
  {
    assert LowerAll("jan") == "jan";
  }

  lemma PlainText(w: string, today: Date)
    requires w == "3 jan 2025" && Valid(today)
    ensures Shape(w) && Interpret(w, today) == Some(Date(2025, 1, 3))
  {
    PlainParts(w);
    JanuaryFields();
    ThirdOfJanuary(Date(2025, 1, 3));
    InterpretDayMonthYear(w[..1], "", w[2..5], w[6..], today);
  }

  lemma PlainDate(message: string, today: Date)
    requires message == "3 jan 2025" && Valid(today)
    ensures ExtractDate(message, today) == Some("2025-01-03")
  {
    PlainText(message, today);
    assert message == "" + message + "";
    ThirdOfJanuary(Date(2025, 1, 3));
    DateFound(message, "", message, "", today, Date(2025, 1, 3));
  }

  lemma DeliveredSplit(message: string)
    requires message == "Delivered Tomorrow"
    ensures message[..10] == "Delivered " && LowerAll(message[10..]) == "tomorrow"
    ensures message == message[..10] + message[10..] + ""
    ensures NoDateStart(message[..10])
  {
    assert NoDateStart("Delivered ");
    assert message[10..] == "Tomorrow";
    assert LowerAll("Tomorrow") == "tomorrow";
  }

  /** "Tomorrow" in a sentence is the day after `today`. */
  lemma TomorrowDate(message: string, today: Date)
    requires message == "Delivered Tomorrow" && Valid(today)
    ensures ExtractDate(message, today) == Some(Format(NextDay(today)))
  {
    DeliveredSplit(message);
    NoMatchInPrefix(message, 10);
    InterpretTomorrow(message[10..], today);
    DateFound(message, message[..10], message[10..], "", today, NextDay(today));
  }

  lemma EitherSplit(message: string)
    requires message == "tomorrow or 2025-01-10"
    ensures message[..8] == "tomorrow" && LowerAll(message[..8]) == "tomorrow"
    ensures message == "" + message[..8] + message[8..]
    ensures !IsWordChar(message[8..][0])
  {
    assert LowerAll("tomorrow") == "tomorrow";
    assert message[8..][0] == ' ';
  }

  /** The leftmost match wins, whichever alternative of the pattern it is. */
  lemma LeftmostWins(message: string, today: Date)
    requires message == "tomorrow or 2025-01-10" && Valid(today)
    ensures ExtractDate(message, today) == Some(Format(NextDay(today)))
  {
    EitherSplit(message);
    InterpretTomorrow(message[..8], today);
    DateFound(message, "", message[..8], message[8..], today, NextDay(today));
  }

  lemma NoInfoText(message: string)
    requires message == "No info"
    ensures NoDateStart(message)
  {
    assert NoDateStart("No info");
  }

  /** A message without a date gives none. */
  lemma NoInfo(message: string, today: Date)
    requires message == "No info" && Valid(today)
    ensures ExtractDate(message, today) == None
  {
    NoInfoText(message);
    NoDateInQuietText(message, today);
  }

  lemma TomorrowsText(message: string)
    requires message == "tomorrows"
    ensures forall k :: 0 <= k < |message| ==> IsWordChar(message[k])
    ensures LowerAll(message) != "tomorrow"
  {
    assert |LowerAll(message)| == 9;
  }

  /** The word boundary keeps "tomorrows" from matching. */
  lemma TomorrowsHasNoDate(message: string, today: Date)
    requires message == "tomorrows" && Valid(today)
    ensures ExtractDate(message, today) == None
  {
    TomorrowsText(message);
    WordRunHasNoDate(message, today);
  }

  /** The upper-case ordinal is found by the pattern, so no later date is
      tried. `strtotime` fails on it, where PHP writes the epoch date, and
      the model gives no date in its place. */
  lemma ShoutedOrdinalDate(message: string, today: Date)
    requires message == "Arrives 3RD Jan 2025" && Valid(today)
    ensures ExtractDate(message, today) == None
  {
    ArrivesSplit(message, "3RD Jan 2025");
    ShoutedOrdinalText(message[8..], today);
    ExtractFirstDate(message[..8], message[8..], "", today);
  }

  lemma GetItSplit(message: string)
    requires message == "Get it by 3rd Jan 2025"
    ensures message[..10] == "Get it by " && message[10..] == "3rd Jan 2025"
    ensures message == message[..10] + message[10..] + ""
    ensures forall p, j :: 0 <= p < 10 ==> !MatchSpan(message, p, j)
  {
    forall p | 0 <= p < 10 ensures CannotStart(message, p) {
      assert p in {0, 1, 2, 3, 4, 5, 6, 7, 8, 9};
    }
    NoMatchBefore(message, 10);
  }

  /** The `t`s of "Get it by" sit inside words, so they start no match and
      the ordinal date after them is found. */
  lemma GetItDate(message: string, today: Date)
    requires message == "Get it by 3rd Jan 2025" && Valid(today)
    ensures ExtractDate(message, today) == Some("2025-01-03")
  {
    GetItSplit(message);
    OrdinalText(message[10..], today);
    ThirdOfJanuary(Date(2025, 1, 3));
    DateFound(message, message[..10], message[10..], "", today, Date(2025, 1, 3));
  }
}

=== FILE: wrappers.dfy ===
/** Failure-compatible wrappers used across the model: `Option` stands for PHP's
    `null`-or-value fields, `Result` for an operation that may throw. */
module Wrappers {

  datatype Option<+T> = None | Some(value: T) {

    /** The value, or `default` when absent. */
    function GetOr(default: T): T
    {
      match this
      case Some(v) => v
      case None => default
    }
  }

  datatype Result<+T, +E> = Success(value: T) | Failure(error: E)
}
